=== FILE: README.md ===
# YouTube platform core of YukkiMusic, in Dafny

This project models the decision logic of `YouTubeAPI` in
`YukkiMusic/platforms/youtube.py`. That class turns a user-supplied reference
(a watch URL, a bare video id, or free text) into track metadata. It also
orchestrates media downloads with yt-dlp.

The model covers:

- reference parsing: `extract_video_id`, `extract_playlist_id` and link normalisation;
- ISO 8601 duration parsing (`_parse_duration`);
- construction of the `details` record, and the `title`, `duration` and `thumbnail` projections of it;
- the unbounded `alru_cache` memoization;
- the write-once `use_fallback` flag;
- link extraction from a chat message (`url`);
- tiered track resolution (`track`, `_track`);
- the `formats` filter;
- the four-way `download` dispatch with its file-exists check;
- the smaller operations `exists`, `search_videos`, `playlist`, `slider`, `video` and `shell_cmd`.

Every remote call is a function-typed parameter, an "oracle". This covers the
YouTube Data API, yt-dlp's `extract_info`/`download`, and subprocesses. The
caches are explicit maps in a `Session` value. The flag is an `Option<bool>`.
The filesystem is a set of existing paths.

Modules follow the structure of the class:

- `Wrappers`: `Option` and `Result`.
- `Text`: character classes, greedy runs, ASCII lower-casing, `str.split(c)[0]` and decimal numerals.
- `Reference`: the regular-expression searches and link normalisation.
- `Duration`: `_parse_duration`, plus a printer used to state its round trip.
- `VideoDetails`: the thumbnail priority chain, the `details` tuple and its projections.
- `Memo`: `alru_cache(maxsize=None)` as a write-once map.
- `Resolver`: the session holding the `details`/`title`/`duration`/`thumbnail` caches, plus `exists` and `search_videos`.
- `MessageLink`: `url`.
- `FallbackFlag`: `use_fallback`.
- `Track`: `track` and `_track`.
- `Formats`: `formats`.
- `Download`: `download` and its nested `audio_dl`, `video_dl`, `song_video_dl` and `song_audio_dl`.
- `Extras`: `playlist`, `slider`, `video` and `shell_cmd`.

A few behaviours of the code are easy to misread. The model keeps them as written:

- `download` only base-prefixes the link. Unlike `video` and `formats`, it does not cut the link at the first `&`.
- The `direct` flag that `download` returns is `True` for a local file and `None` for the stream URL of the fast path.
- Without a video id, `track` searches with the link as given, or with the base-prefixed link when `videoid` is set, and `_track` receives that same link.
- `slider` guards only with `query_type < len(results)`. A negative `query_type` therefore indexes from the end, and one below `-len` raises `IndexError`.

## Model

| member | source | states |
|---|---|---|
| Text.RunEnd | YukkiMusic/platforms/youtube.py:190 | a greedy `\d+` / `[0-9A-Za-z_-]+` consumes exactly the maximal run of class characters |
| Text.BeforeFirst | YukkiMusic/platforms/youtube.py:255-256 | `s.split(c)[0]` is the longest prefix without `c`; the character after it is `c`, and the whole string is kept when `c` is absent |
| Text.DigitsRoundTrip | YukkiMusic/platforms/youtube.py:196-198 | `int()` of a printed natural number gives that number back |
| Reference.MatchAt | YukkiMusic/platforms/youtube.py:78-82 | a match of any of the id patterns yields 11 id characters; a `list=` match yields a non-empty run of id characters |
| Reference.Search | YukkiMusic/platforms/youtube.py:84-87 | `re.search` finds a match iff one starts at some index, and returns the one at the leftmost such index |
| Reference.ExtractVideoId | YukkiMusic/platforms/youtube.py:76-88 | the result is `None` or an 11-character id over `[0-9A-Za-z_-]` |
| Reference.SlashPatternsSubsumed | YukkiMusic/platforms/youtube.py:79-81 | wherever `embed/` or `youtu.be/` matches, `(?:v=\|/)` matches at their final `/` with the same id |
| Reference.ExtractVideoIdIsFirstPattern | YukkiMusic/platforms/youtube.py:78-88 | the second and third patterns never decide: the result is that of the leftmost `v=` or `/` followed by 11 id characters |
| Reference.WatchUrlYieldsId | YukkiMusic/platforms/youtube.py:76-88 | `https://www.youtube.com/watch?v=ID…` yields `ID`, whatever follows it |
| Reference.ShortUrlYieldsId | YukkiMusic/platforms/youtube.py:76-88 | `https://youtu.be/ID…` yields `ID`, whatever follows it |
| Reference.EmbedUrlYieldsId | YukkiMusic/platforms/youtube.py:76-88 | `https://www.youtube.com/embed/ID…` yields `ID`, whatever follows it |
| Reference.ExtractPlaylistId | YukkiMusic/platforms/youtube.py:90-93 | an id is found iff some `list=` is followed by an id character; it is then the maximal run of id characters after the leftmost such `list=` |
| Reference.PlaylistUrlYieldsId | YukkiMusic/platforms/youtube.py:90-93 | `https://youtube.com/playlist?list=PID…` yields `PID` when a non-id character or the end follows it |
| Reference.VideoIdOf | YukkiMusic/platforms/youtube.py:149-155 | the id a lookup uses is the link itself under `videoid` (none when the link is empty), else the extracted id; it is never empty |
| Reference.Prefixed | YukkiMusic/platforms/youtube.py:442-443 | under `videoid` the link is the watch base followed by the given id (its first 32 characters are the base, the rest the id); otherwise unchanged |
| Reference.NormaliseLink | YukkiMusic/platforms/youtube.py:374-377 | the normalised link is the prefix of the (base-prefixed) link before its first `&`, and contains no `&` |
| Reference.NormaliseIdempotent | YukkiMusic/platforms/youtube.py:374-377 | normalising an already normalised link changes nothing |
| Duration.ReadComponent | YukkiMusic/platforms/youtube.py:190-198 | an optional `(\d+)U` group either consumes input or contributes 0 |
| Duration.ParseDuration | YukkiMusic/platforms/youtube.py:186-200 | a string not starting with `PT` gives 0; the result is never negative |
| Duration.ParseFormatted | YukkiMusic/platforms/youtube.py:186-200 | `PT[hH][mM][sS]` followed by any non-digit text parses to h*3600+m*60+s, absent parts counting 0 |
| Duration.FullExample | YukkiMusic/platforms/youtube.py:186-200 | PT1H2M3S parses to 3723 seconds |
| Duration.MinutesExample | YukkiMusic/platforms/youtube.py:186-200 | PT5M parses to 300 seconds |
| Duration.EmptyAndGarbageExamples | YukkiMusic/platforms/youtube.py:186-200 | PT parses to 0, and `garbage`, which does not match, gives 0 |
| VideoDetails.PickThumbnail | YukkiMusic/platforms/youtube.py:177-182 | the url of the first truthy entry among maxres, high, medium, default, or "" if none; a chosen entry without `url` gives "" rather than falling through |
| VideoDetails.DetailsOf | YukkiMusic/platforms/youtube.py:162-184 | a record exists iff the response has items; it carries the first item's title, parsed seconds, chosen thumbnail and the looked-up id; "0:00" stands for 0 seconds |
| VideoDetails.ZeroDurationExactly | YukkiMusic/platforms/youtube.py:174-175 | with a formatter that prints "0:00" only for 0, `duration_min` is "0:00" exactly when `duration_sec` is 0 |
| VideoDetails.Project | YukkiMusic/platforms/youtube.py:202-215 | a projection is present exactly when the record is |
| Memo.Fetch | YukkiMusic/platforms/youtube.py:147 | a cached key answers from the cache and changes nothing; a miss stores the evaluation; existing entries are never changed |
| Memo.FetchAll | YukkiMusic/platforms/youtube.py:147 | over a run of calls the cache only grows, and keys cached beforehand always answer from the cache |
| Memo.FetchAllConsistent | YukkiMusic/platforms/youtube.py:147 | two calls with the same key in one run get the same answer, even if the service's answer changed in between |
| Memo.FetchAllHeadRepeat | YukkiMusic/platforms/youtube.py:147 | a later call with the first call's key gets the first call's answer |
| Memo.FetchAllFirstEvaluates | YukkiMusic/platforms/youtube.py:147 | the first call for an uncached key returns what the wrapped coroutine computed at that moment |
| Memo.FetchAllMisses | YukkiMusic/platforms/youtube.py:147 | a run evaluates the wrapped coroutine exactly once per distinct uncached key, so a `None` result is never retried |
| Resolver.Evaluate | YukkiMusic/platforms/youtube.py:148-184 | no remote call is made when no id can be had, else exactly one; a record is found iff the service lists an item, and then carries that id and the first item's title, parsed duration, chosen thumbnail and minutes form ("0:00" for 0) |
| Resolver.Details | YukkiMusic/platforms/youtube.py:147-184 | a cached key, even one cached as `None`, returns its stored answer with no remote call; a miss caches exactly its own key and costs exactly the lookup's remote calls; projections stay coherent |
| Resolver.Projected | YukkiMusic/platforms/youtube.py:202-215 | `title`, `duration` and `thumbnail` always equal the matching field of the cached `details` for the same key |
| Resolver.DetailsRepeat | YukkiMusic/platforms/youtube.py:147-148 | repeating a `details` call returns the same answer and leaves the session unchanged |
| Resolver.FailureIsFinal | YukkiMusic/platforms/youtube.py:147-165 | once `details` has returned `None` for a key, later calls return `None` without asking the service, whatever it would answer now |
| Resolver.Exists | YukkiMusic/platforms/youtube.py:95-111 | `exists` is false without an id, and otherwise true iff the id lookup lists at least one item |
| Resolver.ExistsIdAndWatchUrlAgree | YukkiMusic/platforms/youtube.py:95-111 | asking about a bare id under `videoid` and about its watch URL gives the same answer |
| Resolver.SearchVideos | YukkiMusic/platforms/youtube.py:217-249 | one hit per search item in order, with the item's id and title, the watch link of the id, the item's high thumbnail and channel, and the cached record's duration or "0:00" |
| Resolver.ToHit | YukkiMusic/platforms/youtube.py:234-247 | one search item becomes a hit with the watch link of its id and the cached duration or "0:00" |
| Resolver.HitLinkYieldsId | YukkiMusic/platforms/youtube.py:243 | the link of a hit leads back to the hit's id |
| MessageLink.FirstOfKind | YukkiMusic/platforms/youtube.py:134-138 | the inner loop stops at the first entity of the wanted type, or runs off the end |
| MessageLink.Slice | YukkiMusic/platforms/youtube.py:145 | Python's clamped slice: at most `length` long, the exact substring when in range, cut at the end when it reaches past it, and empty when it starts at or past the end |
| MessageLink.ContributionOf | YukkiMusic/platforms/youtube.py:133-142 | caption TEXT_LINKs are used only for a message without `entities`; a message with entities contributes its first URL entity, if any; a caption contribution carries the `url` of the first caption TEXT_LINK |
| MessageLink.Scan | YukkiMusic/platforms/youtube.py:130-145 | the loop over the message and its reply finds nothing exactly when no offset was set and no message carries a link |
| MessageLink.Url | YukkiMusic/platforms/youtube.py:123-145 | the first message's caption text link, or its URL entity at a non-zero offset, is the answer |
| MessageLink.UrlTable | YukkiMusic/platforms/youtube.py:123-145 | the full decision table of `url`: a URL entity at offset 0 does not stop the scan, and the reply's link replaces it |
| MessageLink.UrlIntended | YukkiMusic/platforms/youtube.py:131-132 | with the loop stopping once an offset is set, the first message's link of either kind is the answer |
| MessageLink.UrlIntendedTable | YukkiMusic/platforms/youtube.py:131-132 | the full decision table when the scan stops at the first URL entity found |
| MessageLink.UrlAgreesUnlessOffsetZero | YukkiMusic/platforms/youtube.py:131-145 | the code agrees with the intended scan except when the first URL entity is at offset 0 and the reply carries a link |
| MessageLink.OffsetZeroOverwritten | YukkiMusic/platforms/youtube.py:131-132 | a concrete message whose own link at offset 0 is replaced by the reply's link |
| FallbackFlag.Set | YukkiMusic/platforms/youtube.py:117-120 | the setter writes only while the slot holds `None` |
| FallbackFlag.UseFallback | YukkiMusic/platforms/youtube.py:113-115 | the getter tests the slot for `True` itself |
| FallbackFlag.SetAll | YukkiMusic/platforms/youtube.py:117-120 | after a run of setter calls the slot is unset only if it was unset and every call passed `None`, and otherwise holds its old value or one that was written |
| FallbackFlag.SetAllKeepsFirst | YukkiMusic/platforms/youtube.py:117-120 | after any sequence of writes from the start, the slot holds the first non-`None` value written |
| FallbackFlag.SetAllFrozen | YukkiMusic/platforms/youtube.py:119-120 | once written, the slot ignores all later writes |
| FallbackFlag.AtMostOneChange | YukkiMusic/platforms/youtube.py:117-120 | the slot changes at most once, and never once set |
| FallbackFlag.UseFallbackIffFirstTrue | YukkiMusic/platforms/youtube.py:113-120 | the getter is true iff the first non-`None` value written was `True` |
| Track.ToolTrack | YukkiMusic/platforms/youtube.py:344-368 | `_track` succeeds iff yt-dlp answers with an entry that has a thumbnail; the record's title, link, id and thumbnail are those of the first entry, the id beside it is that entry's id, and the duration is `None` iff the entry's is 0, else its minutes form |
| Track.Track | YukkiMusic/platforms/youtube.py:305-342 | the id lookup (or, without an id, the search) is consulted first; without an id, the first search hit's title, link, id, duration and thumbnail are the answer; `_track(link)` is consulted exactly when the first tier yields nothing, and then decides the result; every path returns the record's `vidid` beside it |
| Track.TrackFromDetails | YukkiMusic/platforms/youtube.py:329-340 | a successful lookup is reported with the API's fields and the (base-prefixed) link |
| Track.IdAndWatchUrlAgree | YukkiMusic/platforms/youtube.py:306-311 | resolving a bare id under `videoid` and resolving its watch URL give the same result |
| Formats.Usable | YukkiMusic/platforms/youtube.py:389-401 | an entry is kept when all five keys are present and its lower-cased `format` text lacks "dash" |
| Formats.Available | YukkiMusic/platforms/youtube.py:386-411 | every kept entry comes from a usable input entry, every usable entry is kept, and all are tagged with the link |
| Formats.AvailableAppend | YukkiMusic/platforms/youtube.py:388-411 | the filter distributes over concatenation, so source order is kept |
| Formats.AvailableSingle | YukkiMusic/platforms/youtube.py:388-411 | one entry is kept iff it has all five keys and its lower-cased `format` lacks "dash" |
| Formats.FormatsOf | YukkiMusic/platforms/youtube.py:373-412 | `formats` probes the normalised link and returns the filtered list with that link; probe failure propagates |
| Formats.DropsDashAndIncomplete | YukkiMusic/platforms/youtube.py:388-401 | an adaptive entry (even with a null `filesize`) and an entry missing `format_note` are both dropped |
| Download.PlainDownload | YukkiMusic/platforms/youtube.py:446-487 | the target is `downloads/{id}.{ext}`; it fails iff the probe raises, or the target is missing and the download raises; on success it is downloaded iff it did not already exist, and afterwards it exists |
| Download.SongDownload | YukkiMusic/platforms/youtube.py:489-535 | song modes always download and return `downloads/{id}_{format_id}.mp4` or `.mp3` |
| Download.ServedBy | YukkiMusic/platforms/youtube.py:537-573 | the mode served is songvideo, else songaudio, else video, else audio |
| Download.Download | YukkiMusic/platforms/youtube.py:430-575 | priority songvideo > songaudio > video > audio; song modes return a bare path; `direct` is `None` only for the first stdout line of the flag-off fast path and `True` otherwise; files are only added; song modes fail iff yt-dlp raises, and the plain modes off the fast path fail iff the probe raises or the missing target's download raises |
| Download.DownloadIdempotent | YukkiMusic/platforms/youtube.py:459-487 | repeating a successful audio or video download against the files it left returns the same answer and downloads nothing |
| Download.ExistingFileSkipsDownload | YukkiMusic/platforms/youtube.py:461-463 | an existing `downloads/{id}.{ext}` is returned without a download and without changing the files |
| Extras.Playlist | YukkiMusic/platforms/youtube.py:277-303 | no request without a playlist id; the page size requested is `min(limit, 50)`; the result is the endpoint's ids or [] |
| Extras.PlaylistIdAndUrlAgree | YukkiMusic/platforms/youtube.py:277-303 | a bare playlist id under `videoid` and its playlist URL send the same request and get the same ids |
| Extras.PyIndex | YukkiMusic/platforms/youtube.py:424-425 | Python indexing: negative indices count from the end, and out-of-range indices fail |
| Extras.Slider | YukkiMusic/platforms/youtube.py:414-428 | an index at or past the end gives the all-`None` tuple; an index in range gives that hit's title, duration, thumbnail and id; a negative index gives the hit it counts to from the end; an error occurs iff the index is below `-len` |
| Extras.SliderNegativeCountsFromEnd | YukkiMusic/platforms/youtube.py:425-426 | a negative index `q` with `-len <= q` answers exactly as `q + len` does |
| Extras.ShellOutput | YukkiMusic/platforms/youtube.py:34-46 | stderr is returned iff it is non-empty and lacks the "unavailable videos are hidden" notice; otherwise stdout is returned |
| Extras.HiddenNoticeGivesStdout | YukkiMusic/platforms/youtube.py:41-46 | stderr that contains the notice in any mix of cases, anywhere, gives stdout |
| Extras.ShellOutputExamples | YukkiMusic/platforms/youtube.py:41-46 | the notice is matched whatever its case, another diagnostic is returned, and empty stderr gives stdout |
| Extras.Video | YukkiMusic/platforms/youtube.py:252-275 | code 1 and the first stdout line iff yt-dlp printed anything on the normalised link, else code 0 and stderr |
| Extras.VideoOfNormalised | YukkiMusic/platforms/youtube.py:253-256 | handing `video` an already normalised link runs the same command and gives the same answer |

## Left out

- `_make_api_request`, the aiohttp sessions, HTTP status handling and JSON decoding are left out. API answers are oracle results (`Option` of the fields read), and `None` stands for a failed request, a falsy body or missing `items`.
- yt-dlp (`extract_info`, `download`, the postprocessors) and the subprocesses are left out. Their outputs (info `id`/`ext`, format lists, stdout/stderr text, raised errors) are parameters, and the option dictionaries are opaque. Neither the format strings nor the output templates are interpreted.
- `seconds_to_min`, `cookies()`, `is_on_off` and `config` live outside `youtube.py` and are not part of this model. They appear as a function parameter, a string and a boolean.
- async/await, `asyncify` and the concurrency of `alru_cache` (duplicate in-flight calls) are left out. Calls are sequential.
- The pyrogram `Message` type is reduced to text, caption, entities, caption entities and one reply. An absent text, caption or entity list is written as "" or []. Entity offsets count characters, not UTF-16 code units.
- The real filesystem is a set of existing paths. Logging with `print` is left out.
- Python's Unicode `\d` is restricted to ASCII digits, and `str.lower()` to ASCII letters.
- The unused attributes `reg`, `status` and `regex` are left out. The unused `listbase` appears only as the playlist URL form that Reference.PlaylistUrlYieldsId and Extras.PlaylistIdAndUrlAgree are stated for.
- Resolver.Details: the cache key is `(link, videoid)` with `videoid` reduced to its truthiness. `alru_cache` also tells positional `True` from `videoid=True`, and one truthy value from another.
- Track.Track: the cached `details(id, videoid=True)` and `search_videos(q, 1)` are oracles. `Memo.FetchAllConsistent` justifies treating the cache as a function of its key. The caches of `track`, `formats`, `playlist` and `slider` are not modelled separately. Memo.Fetch describes them only for calls that return: a call that raises (`_track` inside `track`, or `extract_info` inside `formats`) leaves no entry in the cache, so a failure is retried, unlike a returned `None`.
- Resolver.SearchVideos: the `KeyError` raised by a search item without `thumbnails.high.url` or `channelTitle` is not modelled. Items carry those fields.
- Track.ToolTrack: yt-dlp's `duration` is a natural number. A `None` duration of a live entry, which `seconds_to_min` would receive, is not modelled.
- MessageLink.Url: a message with URL entities but neither text nor caption, where Python would fail on slicing `None`, slices "" instead.
- Download.Download: the nested `extract_info` of the song profiles downloads as it probes. Its failure is the probe's failure.

## Findings

| source | as written | input that shows it | evidently intended | confidence | as-written member | corrected member |
|---|---|---|---|---|---|---|
| YukkiMusic/platforms/youtube.py:131-132 | `if offset:` tests truthiness, so a URL entity at offset 0 does not end the loop over the message and its reply | a message whose text `https://a.b` has a URL entity at offset 0, replying to `see https://c.d` with a URL entity at offset 4: `url` returns `https://c.d` (lemma MessageLink.OffsetZeroOverwritten) | stop once an offset is set (`offset is not None`, the test line 143 uses), returning `https://a.b` | medium, not executed | MessageLink.Url | MessageLink.UrlIntended |

=== FILE: details.dfy ===
/** The `details` record built from one item of the YouTube Data API
    `videos` endpoint, and the three projections the module reads from it. */
module VideoDetails {
  import opened Wrappers
  import opened Duration

  /** One thumbnail object (`url`, `width`, `height`, …) with its values as text. */
  type ThumbEntry = map<string, string>

  /** `snippet.thumbnails`: resolution name to thumbnail object. */
  type Thumbnails = map<string, ThumbEntry>

  /** The resolutions `details` tries, best first. */
  const Priority: seq<string> := ["maxres", "high", "medium", "default"]

  /** `thumbnails.get(key)` is truthy: present and a non-empty object. */
  predicate Truthy(ts: Thumbnails, key: string) {
    key in ts && |ts[key]| > 0
  }

  /** `Priority[i]` is the first truthy resolution. */
  predicate FirstTruthy(ts: Thumbnails, i: nat)
    requires i < |Priority|
  {
    Truthy(ts, Priority[i]) && forall j :: 0 <= j < i ==> !Truthy(ts, Priority[j])
  }

  /** `entry.get("url", "")`. */
  function UrlOf(e: ThumbEntry): string {
    if "url" in e then e["url"] else ""
  }

  /** The `maxres or high or medium or get("default", {})` chain, then its `url`:
      the url of the first truthy entry in priority order, "" when none is.
      A chosen entry without `url` yields "" rather than falling through. */
  function PickThumbnail(ts: Thumbnails): (url: string)
    ensures forall i :: 0 <= i < |Priority| && FirstTruthy(ts, i) ==> url == UrlOf(ts[Priority[i]])
    ensures (forall i :: 0 <= i < |Priority| ==> !Truthy(ts, Priority[i])) ==> url == ""
  {
    assert Priority[0] == "maxres" && Priority[1] == "high" && Priority[2] == "medium" && Priority[3] == "default";
    var chosen :=
      if Truthy(ts, "maxres") then ts["maxres"]
      else if Truthy(ts, "high") then ts["high"]
      else if Truthy(ts, "medium") then ts["medium"]
      else if "default" in ts then ts["default"]
      else map[];
    UrlOf(chosen)
  }

  /** The parts of a `videos` item that `details` reads. */
  datatype VideoItem = VideoItem(title: string, duration: string, thumbnails: Thumbnails)

  /** The tuple `(title, duration_min, duration_sec, thumbnail, video_id)`. */
  datatype Details = Details(title: string, durationMin: string, durationSec: nat, thumbnail: string, videoId: string)

  /** Record construction from the API response for `videoId`; `response` is
      `None` when the request failed or the JSON was falsy or had no `items`.
      `secondsToMin` stands for `seconds_to_min`, which this model does not define. */
  function DetailsOf(videoId: string, response: Option<seq<VideoItem>>, secondsToMin: nat -> string): (r: Option<Details>)
    ensures r.Some? <==> response.Some? && |response.value| > 0
    ensures r.Some? ==>
      var item := response.value[0];
      && r.value.videoId == videoId
      && r.value.title == item.title
      && r.value.durationSec == ParseDuration(item.duration)
      && r.value.thumbnail == PickThumbnail(item.thumbnails)
      && (r.value.durationSec == 0 ==> r.value.durationMin == "0:00")
      && (r.value.durationSec != 0 ==> r.value.durationMin == secondsToMin(r.value.durationSec))
  {
    if response.None? || |response.value| == 0 then None
    else
      var item := response.value[0];
      var secs := ParseDuration(item.duration);
      var formatted := if secs != 0 then secondsToMin(secs) else "0:00";
      Some(Details(item.title, formatted, secs, PickThumbnail(item.thumbnails), videoId))
  }

  /** With a formatter that prints "0:00" only for zero, `duration_min` is
      "0:00" exactly when `duration_sec` is 0. */
  lemma ZeroDurationExactly(videoId: string, response: Option<seq<VideoItem>>, secondsToMin: nat -> string)
    requires forall n: nat :: n > 0 ==> secondsToMin(n) != "0:00"
    requires DetailsOf(videoId, response, secondsToMin).Some?
    ensures var d := DetailsOf(videoId, response, secondsToMin).value;
      d.durationMin == "0:00" <==> d.durationSec == 0
  {
  }

  /** The fields `title`, `duration` and `thumbnail` read: 0, 1 and 3. */
  datatype Field = TitleField | DurationField | ThumbnailField

  /** `details[i] if details else None`. */
  function Project(f: Field, d: Option<Details>): (r: Option<string>)
    ensures r.Some? <==> d.Some?
  {
    match d
    case None => None
    case Some(x) =>
      match f
      case TitleField => Some(x.title)
      case DurationField => Some(x.durationMin)
      case ThumbnailField => Some(x.thumbnail)
  }
}

=== FILE: download.dfy ===
/** `download(link, mystic, video, videoid, songaudio, songvideo, format_id)`:
    choice among four yt-dlp profiles and the direct-URL fast path, with
    the file-exists check that makes the plain profiles idempotent. */
module Download {
  import opened Wrappers
  import opened Text
  import opened Reference

  /** The option sets the nested download functions hand to yt-dlp. */
  datatype Profile = AudioProfile | VideoProfile | SongVideoProfile(formatId: string) | SongAudioProfile(formatId: string)

  /** The `id` and `ext` fields of what `extract_info` returns. */
  datatype MediaInfo = MediaInfo(id: string, ext: string)

  /** yt-dlp as seen by the orchestrator: `probe` is `extract_info` with the
      profile's options (for the song profiles it also downloads), and
      `fetchError` is what `download([link])` raises, if anything. */
  datatype Tool = Tool(probe: (Profile, string) -> Result<MediaInfo, string>,
                       fetchError: (Profile, string) -> Option<string>)

  const Dir: string := "downloads"

  /** `os.path.join("downloads", name)`. */
  function InDownloads(name: string): string {
    Dir + "/" + name
  }

  /** `downloads/{id}.{ext}`: where `audio_dl` and `video_dl` put a file. */
  function PlainPath(info: MediaInfo): string {
    InDownloads(info.id + "." + info.ext)
  }

  /** `downloads/{id}_{format_id}.{ext}`: where the song profiles put a file. */
  function SongPath(id: string, formatId: string, ext: string): string {
    InDownloads(id + "_" + formatId + "." + ext)
  }

  /** What `download` returns: a bare path for the song modes, else the
      pair `(downloaded_file, direct)` whose `direct` is `True` or `None`. */
  datatype Answer = Bare(path: string) | Pair(value: string, direct: Option<bool>)

  /** The answer, the set of files present afterwards, and whether yt-dlp
      was asked to download. */
  datatype Outcome = Outcome(answer: Answer, files: set<string>, fetched: bool)

  /** `audio_dl` / `video_dl`: probe, skip the download when the target
      already exists, else download it. */
  function PlainDownload(p: Profile, link: string, tool: Tool, files: set<string>): (r: Result<(string, set<string>, bool), string>)
    requires p == AudioProfile || p == VideoProfile
    ensures r.Success? ==> tool.probe(p, link).Success? && r.value.0 == PlainPath(tool.probe(p, link).value)
    ensures r.Success? ==> r.value.0 in r.value.1 && r.value.1 == files + {r.value.0}
    ensures r.Success? ==> (r.value.2 <==> r.value.0 !in files)
    // it fails exactly when the probe raises, or the download of a missing target raises
    ensures r.Failure? <==>
      tool.probe(p, link).Failure? || (PlainPath(tool.probe(p, link).value) !in files && tool.fetchError(p, link).Some?)
    ensures r.Failure? ==>
      r.error == if tool.probe(p, link).Failure? then tool.probe(p, link).error else tool.fetchError(p, link).value
  {
    match tool.probe(p, link)
    case Failure(e) => Failure(e)
    case Success(info) =>
      var path := PlainPath(info);
      if path in files then Success((path, files, false))
      else if tool.fetchError(p, link).Some? then Failure(tool.fetchError(p, link).value)
      else Success((path, files + {path}, true))
  }

  /** `song_video_dl` / `song_audio_dl`: always download; the returned path
      names the fixed container (`mp4`) or codec (`mp3`). */
  function SongDownload(p: Profile, link: string, tool: Tool, files: set<string>): (r: Result<Outcome, string>)
    requires p.SongVideoProfile? || p.SongAudioProfile?
    ensures r.Success? <==> tool.probe(p, link).Success?
    ensures r.Success? ==> r.value.fetched && r.value.answer.Bare?
    ensures r.Success? ==>
      r.value.answer.path == SongPath(tool.probe(p, link).value.id, p.formatId, if p.SongVideoProfile? then "mp4" else "mp3")
  {
    match tool.probe(p, link)
    case Failure(e) => Failure(e)
    case Success(info) =>
      var path := SongPath(info.id, p.formatId, if p.SongVideoProfile? then "mp4" else "mp3");
      Success(Outcome(Bare(path), files + {path}, true))
  }

  /** The caller's mode flags (Python truthiness). */
  datatype Mode = Mode(video: bool, songaudio: bool, songvideo: bool)

  /** The mode actually served: songvideo > songaudio > video > audio. */
  datatype Served = SongVideo | SongAudio | Video | Audio

  function ServedBy(m: Mode): Served {
    if m.songvideo then SongVideo else if m.songaudio then SongAudio else if m.video then Video else Audio
  }

  function Wrap(r: Result<(string, set<string>, bool), string>, direct: Option<bool>): (o: Result<Outcome, string>)
    ensures o.Success? <==> r.Success?
  {
    match r
    case Failure(e) => Failure(e)
    case Success(x) => Success(Outcome(Pair(x.0, direct), x.1, x.2))
  }

  /** `download`. The link is only base-prefixed here (no cut at `&`).
      `ytDownloader` is `is_on_off(config.YTDOWNLOADER)`, `directOut` the
      stdout of `yt-dlp -g -f best link`; `files` is the set of existing paths. */
  function Download(link: string, videoid: bool, m: Mode, formatId: string, ytDownloader: bool,
                    directOut: string, tool: Tool, files: set<string>): (r: Result<Outcome, string>)
    // song modes answer a bare path, the others a pair
    ensures r.Success? ==> (r.value.answer.Bare? <==> ServedBy(m) in {SongVideo, SongAudio})
    // `direct` is None only for the fast path's first stdout line, True otherwise
    ensures r.Success? && r.value.answer.Pair? ==>
      (r.value.answer.direct.None? <==> ServedBy(m) == Video && !ytDownloader && directOut != "")
    ensures r.Success? && r.value.answer.Pair? ==> r.value.answer.direct in {None, Some(true)}
    ensures ServedBy(m) == Video && !ytDownloader && directOut != "" ==>
      r == Success(Outcome(Pair(BeforeFirst(directOut, '\n'), None), files, false))
    // a downloaded (or already present) file sits at downloads/{id}.{ext}
    ensures r.Success? && r.value.answer.Pair? && r.value.answer.direct == Some(true) ==>
      var p := if ServedBy(m) == Video then VideoProfile else AudioProfile;
      && tool.probe(p, Prefixed(link, videoid)).Success?
      && r.value.answer.value == PlainPath(tool.probe(p, Prefixed(link, videoid)).value)
      && r.value.answer.value in r.value.files
    // a song download sits at downloads/{id}_{format_id}.mp4 or .mp3
    ensures r.Success? && r.value.answer.Bare? ==>
      var p := if ServedBy(m) == SongVideo then SongVideoProfile(formatId) else SongAudioProfile(formatId);
      && tool.probe(p, Prefixed(link, videoid)).Success?
      && r.value.answer.path == SongPath(tool.probe(p, Prefixed(link, videoid)).value.id, formatId,
                                         if ServedBy(m) == SongVideo then "mp4" else "mp3")
    // files are only ever added
    ensures r.Success? ==> files <= r.value.files
    // the song modes fail exactly when yt-dlp raises
    ensures ServedBy(m) in {SongVideo, SongAudio} ==>
      var p := if ServedBy(m) == SongVideo then SongVideoProfile(formatId) else SongAudioProfile(formatId);
      (r.Failure? <==> tool.probe(p, Prefixed(link, videoid)).Failure?)
    // off the fast path, the plain modes fail exactly when the probe raises,
    // or the download of a missing target raises
    ensures ServedBy(m) == Audio || (ServedBy(m) == Video && (ytDownloader || directOut == "")) ==>
      var p := if ServedBy(m) == Video then VideoProfile else AudioProfile;
      var l := Prefixed(link, videoid);
      && (r.Failure? <==> tool.probe(p, l).Failure? || (PlainPath(tool.probe(p, l).value) !in files && tool.fetchError(p, l).Some?))
      && (r.Success? ==> r.value.fetched == (r.value.answer.value !in files))
  {
    var l := Prefixed(link, videoid);
    match ServedBy(m)
    case SongVideo => SongDownload(SongVideoProfile(formatId), l, tool, files)
    case SongAudio => SongDownload(SongAudioProfile(formatId), l, tool, files)
    case Video =>
      if !ytDownloader && directOut != "" then Success(Outcome(Pair(BeforeFirst(directOut, '\n'), None), files, false))
      else Wrap(PlainDownload(VideoProfile, l, tool, files), Some(true))
    case Audio => Wrap(PlainDownload(AudioProfile, l, tool, files), Some(true))
  }

  /** The plain modes are idempotent: repeating a successful download
      against the files it left answers the same and downloads nothing. */
  lemma DownloadIdempotent(link: string, videoid: bool, m: Mode, formatId: string, ytDownloader: bool,
                           directOut: string, tool: Tool, files: set<string>)
    requires ServedBy(m) in {Video, Audio}
    requires Download(link, videoid, m, formatId, ytDownloader, directOut, tool, files).Success?
    ensures var first := Download(link, videoid, m, formatId, ytDownloader, directOut, tool, files).value;
      var again := Download(link, videoid, m, formatId, ytDownloader, directOut, tool, first.files);
      again == Success(Outcome(first.answer, first.files, false))
  {
    var l := Prefixed(link, videoid);
    var p := if ServedBy(m) == Video then VideoProfile else AudioProfile;
    if !(ServedBy(m) == Video && !ytDownloader && directOut != "") {
      var first := PlainDownload(p, l, tool, files);
      assert first.Success?;
      assert PlainDownload(p, l, tool, first.value.1) == Success((first.value.0, first.value.1, false));
    }
  }

  /** An existing target is returned without asking yt-dlp to download. */
  lemma ExistingFileSkipsDownload(link: string, videoid: bool, m: Mode, formatId: string, ytDownloader: bool,
                                  directOut: string, tool: Tool, files: set<string>)
    requires ServedBy(m) == Audio || (ServedBy(m) == Video && (ytDownloader || directOut == ""))
    requires var p := if ServedBy(m) == Video then VideoProfile else AudioProfile;
      tool.probe(p, Prefixed(link, videoid)).Success? && PlainPath(tool.probe(p, Prefixed(link, videoid)).value) in files
    ensures var p := if ServedBy(m) == Video then VideoProfile else AudioProfile;
      Download(link, videoid, m, formatId, ytDownloader, directOut, tool, files) ==
        Success(Outcome(Pair(PlainPath(tool.probe(p, Prefixed(link, videoid)).value), Some(true)), files, false))
  {
  }
}

=== FILE: duration.dfy ===
/** `_parse_duration`: the `PT#H#M#S` subset of the ISO 8601 duration
    "format with designators" (ISO 8601:2004 section 4.4.3.2), read by an
    anchored `re.match` of `PT(?:(\d+)H)?(?:(\d+)M)?(?:(\d+)S)?`. */
module Duration {
  import opened Wrappers
  import opened Text

  /** One optional group `(?:(\d+)U)?`: its value (0 when skipped) and the
      index after it. */
  datatype Component = Component(value: nat, next: nat)

  /** A greedy `\d+` may only give back digits, and a digit is never the
      designator, so the group matches exactly when the maximal digit run
      is non-empty and followed by `unit`. */
  function ReadComponent(s: string, i: nat, unit: char): (c: Component)
    requires i <= |s|
    ensures i <= c.next <= |s|
    ensures c.next == i ==> c.value == 0
  {
    var e := RunEnd(s, i, Digits);
    if i < e < |s| && s[e] == unit then Component(DigitsValue(s[i..e]), e + 1)
    else Component(0, i)
  }

  predicate StartsWithPT(d: string) {
    |d| >= 2 && d[..2] == "PT"
  }

  /** Seconds denoted by the ISO 8601 duration `d`; 0 when it does not start with `PT`. */
  function ParseDuration(d: string): (secs: nat)
    ensures !StartsWithPT(d) ==> secs == 0
  {
    if !StartsWithPT(d) then 0
    else
      var h := ReadComponent(d, 2, 'H');
      var m := ReadComponent(d, h.next, 'M');
      var s := ReadComponent(d, m.next, 'S');
      h.value * 3600 + m.value * 60 + s.value
  }

  /** One optional designated component, as a writer of the format prints it. */
  function Designated(v: Option<nat>, unit: char): string {
    match v
    case None => ""
    case Some(n) => NatToDigits(n) + [unit]
  }

  /** The `PT[nH][nM][nS]` text of a duration. */
  function FormatDuration(h: Option<nat>, m: Option<nat>, s: Option<nat>): string {
    "PT" + Designated(h, 'H') + Designated(m, 'M') + Designated(s, 'S')
  }

  /** No group for `unit` can match at `i`. */
  predicate Absent(s: string, i: nat, unit: char)
    requires i <= |s|
  {
    var e := RunEnd(s, i, Digits);
    e == i || e == |s| || s[e] != unit
  }

  /** The printed form of component `v` occurs in `s` at `i`. */
  predicate Printed(s: string, i: nat, v: Option<nat>, unit: char) {
    i + |Designated(v, unit)| <= |s| && s[i..i + |Designated(v, unit)|] == Designated(v, unit)
  }

  /** The digit run of a printed present component ends at its designator. */
  lemma PrintedRun(s: string, i: nat, n: nat, unit: char)
    requires !IsDigit(unit)
    requires Printed(s, i, Some(n), unit)
    ensures RunEnd(s, i, Digits) == i + |NatToDigits(n)|
    ensures s[i + |NatToDigits(n)|] == unit
    ensures s[i..i + |NatToDigits(n)|] == NatToDigits(n)
  {
    var ds := NatToDigits(n);
    var e := i + |ds|;
    var t := s[i..i + |ds| + 1];
    assert t == ds + [unit];
    forall k | i <= k < e ensures IsDigit(s[k]) {
      assert s[k] == t[k - i] == ds[k - i];
    }
    assert s[e] == t[|ds|] == unit;
    RunEndAt(s, i, e, Digits);
    assert s[i..e] == t[..|ds|];
  }

  /** Reading a printed component back. */
  lemma ReadDesignated(s: string, i: nat, v: Option<nat>, unit: char)
    requires !IsDigit(unit)
    requires Printed(s, i, v, unit)
    requires v.None? ==> Absent(s, i, unit)
    ensures ReadComponent(s, i, unit) == Component(v.GetOr(0), i + |Designated(v, unit)|)
  {
    if v.Some? {
      PrintedRun(s, i, v.value, unit);
      DigitsRoundTrip(v.value);
    }
  }

  /** A present component printed at `i` blocks every other designator there. */
  lemma OtherDesignatorAbsent(s: string, i: nat, n: nat, unit: char, other: char)
    requires !IsDigit(unit) && !IsDigit(other) && unit != other
    requires Printed(s, i, Some(n), other)
    ensures Absent(s, i, unit)
  {
    PrintedRun(s, i, n, other);
  }

  /** A non-digit (or the end) at `i` blocks every designator there. */
  lemma NoDigitAbsent(s: string, i: nat, unit: char)
    requires i <= |s|
    requires i == |s| || !IsDigit(s[i])
    ensures Absent(s, i, unit)
  {
    RunEndAt(s, i, i, Digits);
  }

  /** The pieces of `"PT" + a + b + c + rest`, located by their lengths. */
  lemma PiecesAt(a: string, b: string, c: string, rest: string)
    ensures var d := "PT" + a + b + c + rest;
      var i1, i2, i3 := 2 + |a|, 2 + |a| + |b|, 2 + |a| + |b| + |c|;
      && |d| == i3 + |rest|
      && d[..2] == "PT" && d[2..i1] == a && d[i1..i2] == b && d[i2..i3] == c && d[i3..] == rest
  {
  }

  /** Where each printed component sits in `FormatDuration(h, m, s) + rest`. */
  lemma FormattedLayout(h: Option<nat>, m: Option<nat>, s: Option<nat>, rest: string)
    requires rest == [] || !IsDigit(rest[0])
    ensures var d := FormatDuration(h, m, s) + rest;
      var i1 := 2 + |Designated(h, 'H')|;
      var i2 := i1 + |Designated(m, 'M')|;
      var i3 := i2 + |Designated(s, 'S')|;
      && StartsWithPT(d)
      && Printed(d, 2, h, 'H') && Printed(d, i1, m, 'M') && Printed(d, i2, s, 'S')
      && i3 <= |d| && (i3 == |d| || !IsDigit(d[i3]))
  {
    var dh, dm, ds := Designated(h, 'H'), Designated(m, 'M'), Designated(s, 'S');
    var d := FormatDuration(h, m, s) + rest;
    assert d == "PT" + dh + dm + ds + rest;
    PiecesAt(dh, dm, ds, rest);
    var i3 := 2 + |dh| + |dm| + |ds|;
    if i3 < |d| { assert d[i3] == d[i3..][0] == rest[0]; }
  }

  /** Parsing any text laid out as printed components followed by a non-digit. */
  lemma ParseLaidOut(d: string, h: Option<nat>, m: Option<nat>, s: Option<nat>, i1: nat, i2: nat, i3: nat)
    requires StartsWithPT(d)
    requires i1 == 2 + |Designated(h, 'H')| && i2 == i1 + |Designated(m, 'M')| && i3 == i2 + |Designated(s, 'S')|
    requires Printed(d, 2, h, 'H') && Printed(d, i1, m, 'M') && Printed(d, i2, s, 'S')
    requires i3 <= |d| && (i3 == |d| || !IsDigit(d[i3]))
    ensures ParseDuration(d) == h.GetOr(0) * 3600 + m.GetOr(0) * 60 + s.GetOr(0)
  {
    // `S` at i2: present, or followed by the non-numeric rest.
    if s.Some? {
      OtherDesignatorAbsent(d, i2, s.value, 'M', 'S');
      OtherDesignatorAbsent(d, i2, s.value, 'H', 'S');
    } else {
      NoDigitAbsent(d, i2, 'S');
      NoDigitAbsent(d, i2, 'M');
      NoDigitAbsent(d, i2, 'H');
    }
    ReadDesignated(d, i2, s, 'S');
    // `M` at i1: present, or empty so that i1 is i2.
    if m.Some? {
      OtherDesignatorAbsent(d, i1, m.value, 'H', 'M');
    }
    ReadDesignated(d, i1, m, 'M');
    // `H` at 2: present, or empty so that 2 is i1.
    ReadDesignated(d, 2, h, 'H');
    var ch := ReadComponent(d, 2, 'H');
    var cm := ReadComponent(d, ch.next, 'M');
    var cs := ReadComponent(d, cm.next, 'S');
    assert ch == Component(h.GetOr(0), i1);
    assert cm == Component(m.GetOr(0), i2);
    assert cs.value == s.GetOr(0);
  }

  /** Round trip: parsing a printed duration gives h*3600 + m*60 + s, each
      absent component counting as 0, whatever non-numeric text follows. */
  lemma ParseFormatted(h: Option<nat>, m: Option<nat>, s: Option<nat>, rest: string)
    requires rest == [] || !IsDigit(rest[0])
    ensures ParseDuration(FormatDuration(h, m, s) + rest) == h.GetOr(0) * 3600 + m.GetOr(0) * 60 + s.GetOr(0)
  {
    var i1 := 2 + |Designated(h, 'H')|;
    var i2 := i1 + |Designated(m, 'M')|;
    FormattedLayout(h, m, s, rest);
    ParseLaidOut(FormatDuration(h, m, s) + rest, h, m, s, i1, i2, i2 + |Designated(s, 'S')|);
  }

  /** The worked examples of the duration format. */
  lemma FullExample()
    ensures ParseDuration("PT1H2M3S") == 3723
  {
    assert NatToDigits(1) == "1" && NatToDigits(2) == "2" && NatToDigits(3) == "3";
    assert "PT1H2M3S" == FormatDuration(Some(1), Some(2), Some(3)) + "";
    ParseFormatted(Some(1), Some(2), Some(3), "");
  }

  lemma MinutesExample()
    ensures ParseDuration("PT5M") == 300
  {
    assert NatToDigits(5) == "5";
    assert "PT5M" == FormatDuration(None, Some(5), None) + "";
    ParseFormatted(None, Some(5), None, "");
  }

  lemma EmptyAndGarbageExamples()
    ensures ParseDuration("PT") == 0
    ensures ParseDuration("garbage") == 0
  {
    assert "PT" == FormatDuration(None, None, None) + "";
    ParseFormatted(None, None, None, "");
    assert "garbage"[..2][0] == 'g';
  }
}

=== FILE: extras.dfy ===
/** The smaller operations: `playlist`, `slider`, `video` and the
    module-level `shell_cmd`. */
module Extras {
  import opened Wrappers
  import opened Text
  import opened Reference
  import opened Resolver

  /** The API's page-size ceiling for `playlistItems`. */
  const PageCeiling: int := 50

  /** The parameters `playlist` sends to the `playlistItems` endpoint. */
  datatype PlaylistRequest = PlaylistRequest(playlistId: string, maxResults: int)

  /** `playlist(link, limit, videoid)`: the video ids of one page of the
      playlist, with the request it sent (`None` when no id could be had).
      `api` stands for the endpoint, `None` on failure or no items. */
  function Playlist(link: string, limit: int, videoid: bool, api: PlaylistRequest -> Option<seq<string>>):
    (r: (seq<string>, Option<PlaylistRequest>))
    ensures r.1.None? <==> (if videoid then link == "" else ExtractPlaylistId(link).None?)
    ensures r.1.None? ==> r.0 == []
    ensures r.1.Some? ==> r.1.value.playlistId == (if videoid then link else ExtractPlaylistId(link).value)
    ensures r.1.Some? ==> r.1.value.maxResults <= PageCeiling
    ensures r.1.Some? ==> (r.1.value.maxResults == limit || r.1.value.maxResults == PageCeiling)
    ensures r.1.Some? && limit < PageCeiling ==> r.1.value.maxResults == limit
    ensures r.1.Some? ==> r.0 == api(r.1.value).GetOr([])
  {
    var id := if videoid then (if link == "" then None else Some(link)) else ExtractPlaylistId(link);
    match id
    case None => ([], None)
    case Some(pid) =>
      var request := PlaylistRequest(pid, if limit < PageCeiling then limit else PageCeiling);
      (api(request).GetOr([]), Some(request))
  }

  /** A bare playlist id under `videoid` and its playlist URL send the same
      request and get the same ids. */
  lemma PlaylistIdAndUrlAgree(pid: string, limit: int, api: PlaylistRequest -> Option<seq<string>>)
    requires |pid| > 0 && AllIn(pid, IdChars)
    ensures Playlist(pid, limit, true, api) == Playlist(ListBase + pid, limit, false, api)
  {
    PlaylistUrlYieldsId(pid, "");
    assert ListBase + pid + "" == ListBase + pid;
  }

  /** Python's `xs[i]`: negative indices count from the end. */
  function PyIndex<T>(xs: seq<T>, i: int): (r: Option<T>)
    ensures r.Some? <==> -|xs| <= i < |xs|
    ensures 0 <= i < |xs| ==> r == Some(xs[i])
    ensures -|xs| <= i < 0 ==> r == Some(xs[|xs| + i])
  {
    if 0 <= i < |xs| then Some(xs[i])
    else if -|xs| <= i < 0 then Some(xs[|xs| + i])
    else None
  }

  /** The tuple `(title, duration, thumbnail, id)` `slider` returns. */
  datatype Pick = Pick(title: string, duration: string, thumbnail: string, id: string)

  /** `slider(link, query_type)` over the hits of `search_videos(link, 10)`:
      `None` for the all-`None` tuple, `Failure` for the `IndexError` a
      negative index below `-len` raises. The guard is only `query_type < len`,
      so a negative `query_type` counts from the end. */
  function Slider(hits: seq<Hit>, queryType: int): (r: Result<Option<Pick>, string>)
    ensures queryType >= |hits| ==> r == Success(None)
    ensures 0 <= queryType < |hits| ==>
      r == Success(Some(Pick(hits[queryType].title, hits[queryType].duration, hits[queryType].thumbnail, hits[queryType].id)))
    ensures -|hits| <= queryType < 0 ==>
      var h := hits[|hits| + queryType];
      r == Success(Some(Pick(h.title, h.duration, h.thumbnail, h.id)))
    ensures r.Failure? <==> queryType < -|hits|
  {
    if queryType < |hits| then
      match PyIndex(hits, queryType)
      case None => Failure("IndexError: list index out of range")
      case Some(h) => Success(Some(Pick(h.title, h.duration, h.thumbnail, h.id)))
    else Success(None)
  }

  /** A negative index in range answers as its non-negative counterpart. */
  lemma SliderNegativeCountsFromEnd(hits: seq<Hit>, queryType: int)
    requires -|hits| <= queryType < 0
    ensures Slider(hits, queryType) == Slider(hits, queryType + |hits|)
  {
  }

  /** The stderr notice that `shell_cmd` does not treat as an error. */
  const HiddenNotice: string := "unavailable videos are hidden"

  /** `shell_cmd`'s choice between the decoded stdout and stderr. */
  function ShellOutput(out: string, err: string): (r: string)
    ensures r == out || r == err
    ensures r == err <== err != "" && !Contains(LowerString(err), HiddenNotice)
    ensures r == out <== err == "" || Contains(LowerString(err), HiddenNotice)
  {
    if err != "" then (if Contains(LowerString(err), HiddenNotice) then out else err) else out
  }

  /** The notice is matched whatever its case; other diagnostics are passed on. */
  lemma ShellOutputExamples()
    ensures ShellOutput("url", "Unavailable Videos Are Hidden") == "url"
    ensures ShellOutput("url", "ERROR: private video") == "ERROR: private video"
    ensures ShellOutput("url", "") == "url"
  {
    var lowered := LowerString("Unavailable Videos Are Hidden");
    assert lowered == HiddenNotice by {
      forall k | 0 <= k < |HiddenNotice| ensures lowered[k] == HiddenNotice[k] {
      }
    }
    assert OccursAt(lowered, HiddenNotice, 0);
    assert |LowerString("ERROR: private video")| < |HiddenNotice|;
  }

  /** Lower-casing works character by character, so it distributes over `+`. */
  lemma LowerConcat(a: string, b: string)
    ensures LowerString(a + b) == LowerString(a) + LowerString(b)
  {
    var l, r := LowerString(a + b), LowerString(a) + LowerString(b);
    forall k | 0 <= k < |l| ensures l[k] == r[k] {
      if k < |a| {
        assert (a + b)[k] == a[k];
      } else {
        assert (a + b)[k] == b[k - |a|];
      }
    }
  }

  /** Whatever surrounds it, stderr that carries the notice in any case
      gives stdout. */
  lemma HiddenNoticeGivesStdout(out: string, pre: string, v: string, post: string)
    requires LowerString(v) == HiddenNotice
    ensures ShellOutput(out, pre + v + post) == out
  {
    var err := pre + v + post;
    LowerConcat(pre + v, post);
    LowerConcat(pre, v);
    var lowered := LowerString(err);
    assert lowered == LowerString(pre) + HiddenNotice + LowerString(post);
    assert lowered[|pre|..|pre| + |HiddenNotice|] == HiddenNotice;
    assert OccursAt(lowered, HiddenNotice, |pre|);
  }

  /** The output of a subprocess: decoded stdout and stderr. */
  datatype Streams = Streams(stdout: string, stderr: string)

  /** The argument vector `video` runs yt-dlp with. */
  function StreamCommand(cookies: string, link: string): seq<string> {
    ["yt-dlp", "--cookies", cookies, "-g", "-f", "best[height<=?720][width<=?1280]", link]
  }

  /** `video(link, videoid)`: `(1, first stdout line)` when yt-dlp printed
      a URL, else `(0, stderr)`; `run` stands for the subprocess. */
  function Video(link: string, videoid: bool, cookies: string, run: seq<string> -> Streams): (r: (int, string))
    ensures var out := run(StreamCommand(cookies, NormaliseLink(link, videoid)));
      && (r.0 == 1 <==> out.stdout != "")
      && (r.0 == 1 ==> r.1 == BeforeFirst(out.stdout, '\n') && '\n' !in r.1)
      && (r.0 == 0 ==> r.1 == out.stderr)
    ensures r.0 in {0, 1}
  {
    var out := run(StreamCommand(cookies, NormaliseLink(link, videoid)));
    if out.stdout != "" then (1, BeforeFirst(out.stdout, '\n')) else (0, out.stderr)
  }

  /** Handing `video` an already normalised link changes nothing: the same
      command runs and the same answer comes back. */
  lemma VideoOfNormalised(link: string, videoid: bool, cookies: string, run: seq<string> -> Streams)
    ensures Video(link, videoid, cookies, run) == Video(NormaliseLink(link, videoid), false, cookies, run)
  {
    NormaliseIdempotent(link, videoid);
  }
}

=== FILE: fallback.dfy ===
/** The `use_fallback` property over the shared `NOTHING["cookies_dead"]`
    slot: unset (`None`) at start, written by the first setter call that
    finds it unset, never again. */
module FallbackFlag {
  import opened Wrappers

  /** A value handed to the setter: `None`, `True` or `False`. */
  type Written = Option<bool>

  /** The setter: writes only while the slot still holds `None`. */
  function Set(slot: Option<bool>, v: Written): (r: Option<bool>)
    ensures slot.Some? ==> r == slot
    ensures slot.None? ==> r == v
  {
    if slot.None? then v else slot
  }

  /** The getter: `cookies_dead is True`. */
  predicate UseFallback(slot: Option<bool>) {
    slot == Some(true)
  }

  /** The slot after a sequence of setter calls, oldest first. */
  function SetAll(slot: Option<bool>, ws: seq<Written>): (r: Option<bool>)
    // the slot stays unset only if it was unset and every call passed `None`
    ensures r.None? <==> slot.None? && forall i :: 0 <= i < |ws| ==> ws[i].None?
    // what it holds was there before or was written by some call
    ensures r == slot || exists i :: 0 <= i < |ws| && r == ws[i]
    decreases |ws|
  {
    if ws == [] then slot
    else
      assert forall i :: 1 <= i < |ws| ==> ws[i] == ws[1..][i - 1];
      SetAll(Set(slot, ws[0]), ws[1..])
  }

  /** The first non-`None` value written, if any. */
  function FirstWritten(ws: seq<Written>): (r: Option<bool>)
    ensures r.Some? <==> exists i :: 0 <= i < |ws| && ws[i].Some?
    ensures r.Some? ==> exists i :: 0 <= i < |ws| && ws[i] == r && forall j :: 0 <= j < i ==> ws[j].None?
  {
    if ws == [] then None
    else if ws[0].Some? then ws[0]
    else
      assert forall i :: 1 <= i < |ws| ==> ws[i] == ws[1..][i - 1];
      FirstWritten(ws[1..])
  }

  /** Write-once: from the initial `None`, the slot ends holding the first
      non-`None` value ever written, whatever is written afterwards. */
  lemma {:induction false} SetAllKeepsFirst(ws: seq<Written>)
    ensures SetAll(None, ws) == FirstWritten(ws)
    decreases |ws|
  {
    if ws != [] {
      if ws[0].Some? {
        SetAllFrozen(ws[0], ws[1..]);
      } else {
        SetAllKeepsFirst(ws[1..]);
      }
    }
  }

  /** Once written, the slot ignores every later write. */
  lemma {:induction false} SetAllFrozen(slot: Option<bool>, ws: seq<Written>)
    requires slot.Some?
    ensures SetAll(slot, ws) == slot
    decreases |ws|
  {
    if ws != [] {
      SetAllFrozen(Set(slot, ws[0]), ws[1..]);
    }
  }

  /** The number of setter calls that changed the slot. */
  function Changes(slot: Option<bool>, ws: seq<Written>): nat
    decreases |ws|
  {
    if ws == [] then 0
    else (if Set(slot, ws[0]) != slot then 1 else 0) + Changes(Set(slot, ws[0]), ws[1..])
  }

  /** The flag changes at most once in a process's lifetime. */
  lemma {:induction false} AtMostOneChange(slot: Option<bool>, ws: seq<Written>)
    ensures Changes(slot, ws) <= 1
    ensures slot.Some? ==> Changes(slot, ws) == 0
    decreases |ws|
  {
    if ws != [] {
      AtMostOneChange(Set(slot, ws[0]), ws[1..]);
    }
  }

  /** The getter answers true exactly when the first value written was `True`. */
  lemma UseFallbackIffFirstTrue(ws: seq<Written>)
    ensures UseFallback(SetAll(None, ws)) <==> FirstWritten(ws) == Some(true)
  {
    SetAllKeepsFirst(ws);
  }
}

=== FILE: formats.dfy ===
/** `formats(link, videoid)`: the downloadable formats yt-dlp reports for a
    link, keeping only fully described, non-DASH entries. */
module Formats {
  import opened Wrappers
  import opened Text
  import opened Reference

  /** A JSON-like field value as yt-dlp reports it. */
  datatype Value = Null | Str(s: string) | Int(i: int)

  /** Python's `str(value)`. */
  function PyStr(v: Value): string {
    match v
    case Null => "None"
    case Str(s) => s
    case Int(i) => IntToString(i)
  }

  /** One entry of `info["formats"]`: the keys it has, with their values. */
  type FormatEntry = map<string, Value>

  /** The keys every kept entry must have; presence counts, not non-null values. */
  const RequiredKeys: set<string> := {"format", "filesize", "format_id", "ext", "format_note"}

  /** An entry the loop keeps. */
  predicate Usable(e: FormatEntry) {
    RequiredKeys <= e.Keys && !Contains(LowerString(PyStr(e["format"])), "dash")
  }

  /** A kept entry: the five fields and the normalised link. */
  datatype FormatDescriptor = FormatDescriptor(format: Value, filesize: Value, formatId: Value, ext: Value,
                                               formatNote: Value, yturl: string)

  function Describe(e: FormatEntry, link: string): FormatDescriptor
    requires RequiredKeys <= e.Keys
  {
    FormatDescriptor(e["format"], e["filesize"], e["format_id"], e["ext"], e["format_note"], link)
  }

  /** The loop over `info["formats"]`, in source order. */
  function Available(es: seq<FormatEntry>, link: string): (r: seq<FormatDescriptor>)
    ensures |r| <= |es|
    ensures forall d :: d in r ==> d.yturl == link
    ensures forall e :: e in es && Usable(e) ==> Describe(e, link) in r
    ensures forall d :: d in r ==> exists e :: e in es && Usable(e) && d == Describe(e, link)
    decreases |es|
  {
    if es == [] then []
    else
      var rest := Available(es[1..], link);
      assert forall e :: e in es[1..] ==> e in es;
      assert forall e :: e in es ==> e == es[0] || e in es[1..];
      if Usable(es[0]) then [Describe(es[0], link)] + rest else rest
  }

  /** The filter distributes over concatenation, so kept entries keep their
      relative order. */
  lemma {:induction false} AvailableAppend(a: seq<FormatEntry>, b: seq<FormatEntry>, link: string)
    ensures Available(a + b, link) == Available(a, link) + Available(b, link)
    decreases |a|
  {
    if a == [] {
      assert a + b == b;
    } else {
      assert (a + b)[0] == a[0];
      assert (a + b)[1..] == a[1..] + b;
      AvailableAppend(a[1..], b, link);
    }
  }

  /** A single entry is kept exactly when it is usable. */
  lemma AvailableSingle(e: FormatEntry, link: string)
    ensures Available([e], link) == if Usable(e) then [Describe(e, link)] else []
  {
    assert [e][1..] == [];
  }

  /** `formats(link, videoid)`: `probe` stands for `extract_info(link)["formats"]`
      on the normalised link; its failure propagates. */
  function FormatsOf(link: string, videoid: bool, probe: string -> Result<seq<FormatEntry>, string>):
    (r: Result<(seq<FormatDescriptor>, string), string>)
    ensures r.Success? <==> probe(NormaliseLink(link, videoid)).Success?
    ensures r.Success? ==> r.value.1 == NormaliseLink(link, videoid) && '&' !in r.value.1
    ensures r.Success? ==> r.value.0 == Available(probe(r.value.1).value, r.value.1)
  {
    var normal := NormaliseLink(link, videoid);
    match probe(normal)
    case Failure(e) => Failure(e)
    case Success(es) => Success((Available(es, normal), normal))
  }

  /** An adaptive-stream entry and an entry missing `format_note` are both dropped. */
  lemma DropsDashAndIncomplete(link: string)
    ensures var dash: FormatEntry := map["format" := Str("137 - 1920x1080 (DASH video)"), "filesize" := Null,
                                         "format_id" := Str("137"), "ext" := Str("mp4"), "format_note" := Str("1080p")];
      var noNote: FormatEntry := map["format" := Str("18 - 640x360"), "filesize" := Int(1000),
                                     "format_id" := Str("18"), "ext" := Str("mp4")];
      Available([dash, noNote], link) == []
  {
    var dash: FormatEntry := map["format" := Str("137 - 1920x1080 (DASH video)"), "filesize" := Null,
                                 "format_id" := Str("137"), "ext" := Str("mp4"), "format_note" := Str("1080p")];
    var noNote: FormatEntry := map["format" := Str("18 - 640x360"), "filesize" := Int(1000),
                                   "format_id" := Str("18"), "ext" := Str("mp4")];
    var lowered := LowerString(PyStr(dash["format"]));
    assert OccursAt(lowered, "dash", 17) by {
      assert lowered[17..21] == "dash";
    }
    assert "format_note" !in noNote;
    AvailableAppend([dash], [noNote], link);
    AvailableSingle(dash, link);
    AvailableSingle(noNote, link);
  }
}

=== FILE: memo.dfy ===
/** `alru_cache(maxsize=None)` as a sequential key-to-result map: unbounded,
    never evicted, and a stored `None` is as final as any other result. */
module Memo {

  /** Every entry of `before` is still in `after`, unchanged. */
  ghost predicate Extends<K, V>(before: map<K, V>, after: map<K, V>) {
    forall k :: k in before ==> k in after && after[k] == before[k]
  }

  /** One call through the cache. `computed` is what the wrapped coroutine
      would return if it ran now; it is used only on a miss. */
  function Fetch<K, V>(cache: map<K, V>, k: K, computed: V): (r: (V, map<K, V>))
    ensures k in cache ==> r.0 == cache[k] && r.1 == cache
    ensures k !in cache ==> r.0 == computed
    ensures k in r.1 && r.1[k] == r.0
    ensures Extends(cache, r.1)
    ensures r.1.Keys == cache.Keys + {k}
  {
    if k in cache then (cache[k], cache) else (computed, cache[k := computed])
  }

  /** The keys a run of calls asks for. */
  function KeysOf<K, V>(reqs: seq<(K, V)>): set<K> {
    set i | 0 <= i < |reqs| :: reqs[i].0
  }

  lemma KeysOfCons<K, V>(reqs: seq<(K, V)>)
    requires |reqs| > 0
    ensures KeysOf(reqs) == {reqs[0].0} + KeysOf(reqs[1..])
  {
    forall x | x in KeysOf(reqs) ensures x in {reqs[0].0} + KeysOf(reqs[1..]) {
      var i :| 0 <= i < |reqs| && reqs[i].0 == x;
      if i > 0 { assert reqs[1..][i - 1].0 == x; }
    }
    forall x | x in KeysOf(reqs[1..]) ensures x in KeysOf(reqs) {
      var i :| 0 <= i < |reqs[1..]| && reqs[1..][i].0 == x;
      assert reqs[i + 1].0 == x;
    }
  }

  /** The results of a run of calls, the cache after it, and how many of
      the calls ran the wrapped coroutine. */
  datatype Run<K, V> = Run(results: seq<V>, cache: map<K, V>, misses: nat)

  /** A sequence of calls, each paired with what a fresh evaluation would
      return at that moment (remote answers may change over time). */
  function FetchAll<K, V>(cache: map<K, V>, reqs: seq<(K, V)>): (r: Run<K, V>)
    ensures |r.results| == |reqs|
    ensures Extends(cache, r.cache)
    ensures r.cache.Keys == cache.Keys + KeysOf(reqs)
    // a key already cached answers from the cache
    ensures forall i :: 0 <= i < |reqs| && reqs[i].0 in cache ==> r.results[i] == cache[reqs[i].0]
    decreases |reqs|
  {
    if reqs == [] then
      Run([], cache, 0)
    else
      var k := reqs[0].0;
      var first := Fetch(cache, k, reqs[0].1);
      var rest := FetchAll(first.1, reqs[1..]);
      KeysOfCons(reqs);
      var r := Run([first.0] + rest.results, rest.cache, rest.misses + (if k in cache then 0 else 1));
      assert forall i :: 1 <= i < |reqs| ==> reqs[i] == reqs[1..][i - 1] && r.results[i] == rest.results[i - 1];
      r
  }

  /** Two calls with the same key in one run get the same answer. */
  lemma {:induction false} FetchAllConsistent<K, V>(cache: map<K, V>, reqs: seq<(K, V)>, i: nat, j: nat)
    requires i < j < |reqs| && reqs[i].0 == reqs[j].0
    ensures FetchAll(cache, reqs).results[i] == FetchAll(cache, reqs).results[j]
    decreases |reqs|
  {
    if i == 0 {
      FetchAllHeadRepeat(cache, reqs, j);
    } else {
      var after := Fetch(cache, reqs[0].0, reqs[0].1).1;
      FetchAllShift(cache, reqs, i);
      FetchAllShift(cache, reqs, j);
      assert reqs[i] == reqs[1..][i - 1] && reqs[j] == reqs[1..][j - 1];
      FetchAllConsistent(after, reqs[1..], i - 1, j - 1);
    }
  }

  /** After the first call, the run goes on from the cache that call left. */
  lemma FetchAllShift<K, V>(cache: map<K, V>, reqs: seq<(K, V)>, i: nat)
    requires 0 < i < |reqs|
    ensures FetchAll(cache, reqs).results[i] == FetchAll(Fetch(cache, reqs[0].0, reqs[0].1).1, reqs[1..]).results[i - 1]
  {
  }

  /** A later call for the first call's key answers from the entry the
      first call left. */
  lemma FetchAllHeadRepeat<K, V>(cache: map<K, V>, reqs: seq<(K, V)>, j: nat)
    requires 0 < j < |reqs| && reqs[0].0 == reqs[j].0
    ensures FetchAll(cache, reqs).results[0] == FetchAll(cache, reqs).results[j]
  {
    var first := Fetch(cache, reqs[0].0, reqs[0].1);
    var rest := FetchAll(first.1, reqs[1..]);
    assert FetchAll(cache, reqs).results == [first.0] + rest.results;
    assert reqs[1..][j - 1].0 == reqs[0].0;
    assert rest.results[j - 1] == first.1[reqs[0].0];
  }

  /** The first call for a key not yet cached evaluates the coroutine. */
  lemma {:induction false} FetchAllFirstEvaluates<K, V>(cache: map<K, V>, reqs: seq<(K, V)>, i: nat)
    requires i < |reqs| && reqs[i].0 !in cache
    requires forall j :: 0 <= j < i ==> reqs[j].0 != reqs[i].0
    ensures FetchAll(cache, reqs).results[i] == reqs[i].1
    decreases |reqs|
  {
    if i > 0 {
      var first := Fetch(cache, reqs[0].0, reqs[0].1);
      assert reqs[i] == reqs[1..][i - 1];
      forall j | 0 <= j < i - 1 ensures reqs[1..][j].0 != reqs[1..][i - 1].0 {
        assert reqs[1..][j] == reqs[j + 1];
      }
      FetchAllFirstEvaluates(first.1, reqs[1..], i - 1);
    }
  }

  /** Counting new keys one call at a time. */
  lemma NewKeysStep<K>(all: set<K>, rest: set<K>, cached: set<K>, k: K)
    requires all == {k} + rest
    ensures |all - cached| == |rest - (cached + {k})| + (if k in cached then 0 else 1)
  {
    if k in cached {
      assert all - cached == rest - (cached + {k});
    } else {
      assert all - cached == (rest - (cached + {k})) + {k};
    }
  }

  /** A run evaluates the coroutine exactly once per distinct uncached key:
      a failed lookup is never retried. */
  lemma {:induction false} FetchAllMisses<K, V>(cache: map<K, V>, reqs: seq<(K, V)>)
    ensures FetchAll(cache, reqs).misses == |KeysOf(reqs) - cache.Keys|
    decreases |reqs|
  {
    if reqs == [] {
      assert KeysOf(reqs) == {};
    } else {
      var k := reqs[0].0;
      var first := Fetch(cache, k, reqs[0].1);
      FetchAllMisses(first.1, reqs[1..]);
      KeysOfCons(reqs);
      assert FetchAll(cache, reqs).misses == FetchAll(first.1, reqs[1..]).misses + (if k in cache then 0 else 1);
      NewKeysStep(KeysOf(reqs), KeysOf(reqs[1..]), cache.Keys, k);
    }
  }
}

=== FILE: message.dfy ===
/** `url(message)`: the link text a chat message (or the message it
    replies to) carries, read from its entity annotations. */
module MessageLink {
  import opened Wrappers

  datatype EntityKind = UrlEntity | TextLinkEntity | OtherEntity

  /** A message entity: `type`, `offset`, `length` and, for text links, `url`. */
  datatype Entity = Entity(kind: EntityKind, offset: nat, length: nat, url: string)

  /** The fields of a message the scan reads; "" and [] stand for Python's `None`. */
  datatype Post = Post(text: string, caption: string, entities: seq<Entity>, captionEntities: seq<Entity>)

  /** A message and the message it replies to, if any. */
  datatype Message = Message(post: Post, reply: Option<Post>)

  /** Index of the first entity of `kind`, or |es| when there is none. */
  function FirstOfKind(es: seq<Entity>, kind: EntityKind): (i: nat)
    ensures i <= |es|
    ensures i < |es| ==> es[i].kind == kind
    ensures forall j :: 0 <= j < i ==> es[j].kind != kind
  {
    if es == [] then 0
    else if es[0].kind == kind then 0
    else 1 + FirstOfKind(es[1..], kind)
  }

  /** `message.text or message.caption`. */
  function TextOf(p: Post): string {
    if p.text != "" then p.text else p.caption
  }

  /** Python's `text[offset : offset + length]` for non-negative bounds. */
  function Slice(t: string, offset: nat, length: nat): (r: string)
    ensures |r| <= length
    ensures offset + length <= |t| ==> r == t[offset..offset + length]
    // a slice reaching past the end is cut at the end, one starting past it is empty
    ensures offset <= |t| < offset + length ==> r == t[offset..]
    ensures |t| <= offset ==> r == ""
  {
    var lo := if offset <= |t| then offset else |t|;
    var hi := if offset + length <= |t| then offset + length else |t|;
    t[lo..hi]
  }

  /** What one message of the loop yields. */
  datatype Contribution =
    | Nothing
    | Link(text: string, offset: nat, length: nat)  // a URL entity: remembered, the loop goes on
    | Caption(url: string)                           // a caption TEXT_LINK: returned at once

  /** The body of the loop for one message: the first URL entity when the
      message has `entities`, else the first caption TEXT_LINK. */
  function ContributionOf(p: Post): (c: Contribution)
    ensures c.Caption? ==> |p.entities| == 0
    ensures c.Link? <==> FirstOfKind(p.entities, UrlEntity) < |p.entities|
    ensures c.Link? ==> var e := p.entities[FirstOfKind(p.entities, UrlEntity)];
      c == Link(TextOf(p), e.offset, e.length)
    ensures c.Caption? <==> |p.entities| == 0 && FirstOfKind(p.captionEntities, TextLinkEntity) < |p.captionEntities|
    ensures c.Caption? ==> c.url == p.captionEntities[FirstOfKind(p.captionEntities, TextLinkEntity)].url
  {
    if |p.entities| > 0 then
      var i := FirstOfKind(p.entities, UrlEntity);
      if i < |p.entities| then Link(TextOf(p), p.entities[i].offset, p.entities[i].length) else Nothing
    else if |p.captionEntities| > 0 then
      var i := FirstOfKind(p.captionEntities, TextLinkEntity);
      if i < |p.captionEntities| then Caption(p.captionEntities[i].url) else Nothing
    else Nothing
  }

  /** The loop's `text`, `offset` and `length` variables. */
  datatype ScanState = ScanState(text: string, offset: Option<nat>, length: nat)

  /** The test that ends the loop early: as written, `if offset:` (not None
      and not 0); as evidently intended, `offset is not None`. */
  datatype Guard = Truthiness | NotNone

  predicate Stops(g: Guard, st: ScanState) {
    match g
    case Truthiness => st.offset.Some? && st.offset.value != 0
    case NotNone => st.offset.Some?
  }

  /** After the loop: `None` if no offset was set, else the slice. */
  function Finish(st: ScanState): Option<string> {
    if st.offset.None? then None else Some(Slice(st.text, st.offset.value, st.length))
  }

  /** The `for message in messages` loop. */
  function Scan(posts: seq<Post>, st: ScanState, g: Guard): (r: Option<string>)
    // nothing is found only when no offset was set and no message has a link
    ensures r.None? <==> st.offset.None? && forall i :: 0 <= i < |posts| ==> ContributionOf(posts[i]).Nothing?
    decreases |posts|
  {
    if posts == [] || Stops(g, st) then Finish(st)
    else
      assert forall i :: 1 <= i < |posts| ==> posts[i] == posts[1..][i - 1];
      match ContributionOf(posts[0])
      case Caption(u) => Some(u)
      case Link(t, o, l) => Scan(posts[1..], ScanState(t, Some(o), l), g)
      case Nothing => Scan(posts[1..], st, g)
  }

  function Posts(m: Message): seq<Post> {
    if m.reply.Some? then [m.post, m.reply.value] else [m.post]
  }

  const Start: ScanState := ScanState("", None, 0)

  /** `url(message_1)` as written: the first message's caption text link,
      or its URL entity when that does not start at offset 0, is final. */
  function Url(m: Message): (r: Option<string>)
    ensures ContributionOf(m.post).Caption? ==> r == Some(ContributionOf(m.post).url)
    ensures ContributionOf(m.post).Link? && ContributionOf(m.post).offset != 0 ==> r == Some(LinkText(ContributionOf(m.post)))
  {
    ScanFirst(Posts(m), Start, Truthiness);
    Scan(Posts(m), Start, Truthiness)
  }

  /** `url(message_1)` with the loop stopping at the first URL entity found,
      whatever its offset: the first message's link of either kind is final. */
  function UrlIntended(m: Message): (r: Option<string>)
    ensures ContributionOf(m.post).Caption? ==> r == Some(ContributionOf(m.post).url)
    ensures ContributionOf(m.post).Link? ==> r == Some(LinkText(ContributionOf(m.post)))
  {
    ScanFirst(Posts(m), Start, NotNone);
    Scan(Posts(m), Start, NotNone)
  }

  /** What a remembered link entity slices out. */
  function LinkText(c: Contribution): string
    requires c.Link?
  {
    Slice(c.text, c.offset, c.length)
  }

  /** One turn of the loop. */
  lemma ScanFirst(posts: seq<Post>, st: ScanState, g: Guard)
    requires |posts| > 0 && !Stops(g, st)
    ensures Scan(posts, st, g) ==
      match ContributionOf(posts[0])
      case Caption(u) => Some(u)
      case Link(t, o, l) => Scan(posts[1..], ScanState(t, Some(o), l), g)
      case Nothing => Scan(posts[1..], st, g)
  {
  }

  /** The loop over a last remaining message. */
  lemma ScanLast(p: Post, st: ScanState, g: Guard)
    ensures Scan([p], st, g) ==
      if Stops(g, st) then Finish(st)
      else
        match ContributionOf(p)
        case Caption(u) => Some(u)
        case Link(t, o, l) => Finish(ScanState(t, Some(o), l))
        case Nothing => Finish(st)
  {
    assert [p][1..] == [];
  }

  /** The decision table of `url` as written, message by message: a caption
      TEXT_LINK is returned at once; a URL entity wins unless it sits at
      offset 0, in which case the reply is still consulted and any link
      there replaces it. */
  lemma {:induction false} UrlTable(m: Message)
    ensures var c1 := ContributionOf(m.post);
      Url(m) ==
        if c1.Caption? then Some(c1.url)
        else if c1.Link? && (c1.offset != 0 || m.reply.None?) then Some(LinkText(c1))
        else if m.reply.None? then None
        else
          var c2 := ContributionOf(m.reply.value);
          if c2.Caption? then Some(c2.url)
          else if c2.Link? then Some(LinkText(c2))
          else if c1.Link? then Some(LinkText(c1))
          else None
  {
    var c1 := ContributionOf(m.post);
    var st1 := if c1.Link? then ScanState(c1.text, Some(c1.offset), c1.length) else Start;
    ScanFirst(Posts(m), Start, Truthiness);
    if m.reply.Some? {
      assert Posts(m)[1..] == [m.reply.value];
      ScanLast(m.reply.value, st1, Truthiness);
    } else {
      assert Posts(m)[1..] == [];
    }
  }

  /** The intended table: the first message's link, of either kind, always wins. */
  lemma {:induction false} UrlIntendedTable(m: Message)
    ensures var c1 := ContributionOf(m.post);
      UrlIntended(m) ==
        if c1.Caption? then Some(c1.url)
        else if c1.Link? then Some(LinkText(c1))
        else if m.reply.None? then None
        else
          var c2 := ContributionOf(m.reply.value);
          if c2.Caption? then Some(c2.url)
          else if c2.Link? then Some(LinkText(c2))
          else None
  {
    var c1 := ContributionOf(m.post);
    var st1 := if c1.Link? then ScanState(c1.text, Some(c1.offset), c1.length) else Start;
    ScanFirst(Posts(m), Start, NotNone);
    if m.reply.Some? {
      assert Posts(m)[1..] == [m.reply.value];
      ScanLast(m.reply.value, st1, NotNone);
    } else {
      assert Posts(m)[1..] == [];
    }
  }

  /** The two differ only when the first message's URL entity starts at
      offset 0 and the reply carries a link of its own. */
  lemma UrlAgreesUnlessOffsetZero(m: Message)
    requires !(ContributionOf(m.post).Link? && ContributionOf(m.post).offset == 0 && m.reply.Some?
               && !ContributionOf(m.reply.value).Nothing?)
    ensures Url(m) == UrlIntended(m)
  {
    UrlTable(m);
    UrlIntendedTable(m);
  }

  /** A message whose text is a bare link, replying to another message with
      a link: `url` returns the replied-to link instead of the message's own. */
  lemma OffsetZeroOverwritten()
    ensures var own := Post("https://a.b", "", [Entity(UrlEntity, 0, 11, "")], []);
      var replied := Post("see https://c.d", "", [Entity(UrlEntity, 4, 11, "")], []);
      var m := Message(own, Some(replied));
      Url(m) == Some("https://c.d") && UrlIntended(m) == Some("https://a.b")
  {
    var own := Post("https://a.b", "", [Entity(UrlEntity, 0, 11, "")], []);
    var replied := Post("see https://c.d", "", [Entity(UrlEntity, 4, 11, "")], []);
    var m := Message(own, Some(replied));
    assert FirstOfKind(own.entities, UrlEntity) == 0;
    assert FirstOfKind(replied.entities, UrlEntity) == 0;
    UrlTable(m);
    UrlIntendedTable(m);
    assert "see https://c.d"[4..15] == "https://c.d";
    assert "https://a.b"[0..11] == "https://a.b";
  }
}

=== FILE: reference.dfy ===
/** Parsing of user-supplied references: `extract_video_id`,
    `extract_playlist_id` and the link normalisation that `video`, `formats`
    and `download` apply before handing a link to yt-dlp. */
module Reference {
  import opened Wrappers
  import opened Text

  /** `self.base`: the canonical watch URL a bare id is appended to. */
  const Base: string := "https://www.youtube.com/watch?v="

  const IdLength: nat := 11

  /** The regular expressions the module searches with. */
  datatype Pattern =
    | VOrSlash   // (?:v=|\/)([0-9A-Za-z_-]{11}).*
    | Embed      // (?:embed\/)([0-9A-Za-z_-]{11})
    | ShortLink  // (?:youtu\.be\/)([0-9A-Za-z_-]{11})
    | ListParam  // list=([a-zA-Z0-9_-]+)

  /** Eleven identifier characters start at `j`. */
  predicate IdAt(s: string, j: nat) {
    j + IdLength <= |s| && AllIn(s[j..j + IdLength], IdChars)
  }

  /** A well-formed video id. */
  predicate IsVideoId(id: string) {
    |id| == IdLength && AllIn(id, IdChars)
  }

  /** Group 1 of a match of `p` that starts exactly at index `i` of `s`. */
  function MatchAt(p: Pattern, s: string, i: nat): (r: Option<string>)
    ensures r.Some? && p != ListParam ==> IsVideoId(r.value)
    ensures r.Some? && p == ListParam ==> |r.value| > 0 && AllIn(r.value, IdChars)
  {
    match p
    case VOrSlash =>
      if OccursAt(s, "v=", i) && IdAt(s, i + 2) then Some(s[i + 2..i + 2 + IdLength])
      else if i < |s| && s[i] == '/' && IdAt(s, i + 1) then Some(s[i + 1..i + 1 + IdLength])
      else None
    case Embed =>
      if OccursAt(s, "embed/", i) && IdAt(s, i + 6) then Some(s[i + 6..i + 6 + IdLength]) else None
    case ShortLink =>
      if OccursAt(s, "youtu.be/", i) && IdAt(s, i + 9) then Some(s[i + 9..i + 9 + IdLength]) else None
    case ListParam =>
      if OccursAt(s, "list=", i) && i + 5 < |s| && IsIdChar(s[i + 5])
      then Some(s[i + 5..RunEnd(s, i + 5, IdChars)])
      else None
  }

  /** `re.search(p, s[i:])` as far as group 1 goes: the match at the
      leftmost starting index at or after `i`. */
  function Search(p: Pattern, s: string, i: nat): (r: Option<string>)
    requires i <= |s|
    ensures r.Some? <==> exists k :: i <= k <= |s| && MatchAt(p, s, k).Some?
    ensures r.Some? ==>
      exists k :: i <= k <= |s| && MatchAt(p, s, k) == r &&
        forall j :: i <= j < k ==> MatchAt(p, s, j).None?
    decreases |s| - i
  {
    if MatchAt(p, s, i).Some? then MatchAt(p, s, i)
    else if i == |s| then None
    else Search(p, s, i + 1)
  }

  /** Positions that cannot match may be skipped. */
  lemma {:induction false} SearchSkips(p: Pattern, s: string, i: nat, j: nat)
    requires i <= j <= |s|
    requires forall k :: i <= k < j ==> MatchAt(p, s, k).None?
    ensures Search(p, s, i) == Search(p, s, j)
    decreases j - i
  {
    if i < j {
      SearchSkips(p, s, i + 1, j);
    }
  }

  /** `extract_video_id`: the three patterns in order, first hit wins. */
  function ExtractVideoId(url: string): (r: Option<string>)
    ensures r.Some? ==> IsVideoId(r.value)
  {
    var first := Search(VOrSlash, url, 0);
    if first.Some? then first
    else
      var second := Search(Embed, url, 0);
      if second.Some? then second else Search(ShortLink, url, 0)
  }

  /** An `embed/` or `youtu.be/` match ends in `/`, so the first pattern
      already matches one index later. */
  lemma SlashPatternsSubsumed(p: Pattern, s: string, i: nat)
    requires p == Embed || p == ShortLink
    requires MatchAt(p, s, i).Some?
    ensures MatchAt(VOrSlash, s, i + |PatternLiteral(p)| - 1) == MatchAt(p, s, i)
  {
    var j := i + |PatternLiteral(p)| - 1;
    assert s[j] == PatternLiteral(p)[|PatternLiteral(p)| - 1];
  }

  /** The literal text in front of the id group of the two slash patterns. */
  function PatternLiteral(p: Pattern): string
    requires p == Embed || p == ShortLink
  {
    if p == Embed then "embed/" else "youtu.be/"
  }

  /** The second and third patterns are dead code: `extract_video_id`
      answers exactly as the first pattern alone, with the leftmost
      `v=` or `/` that is followed by eleven id characters. */
  lemma ExtractVideoIdIsFirstPattern(url: string)
    ensures ExtractVideoId(url) == Search(VOrSlash, url, 0)
  {
    forall k | 0 <= k <= |url| && MatchAt(Embed, url, k).Some?
      ensures MatchAt(VOrSlash, url, k + 5).Some?
    {
      SlashPatternsSubsumed(Embed, url, k);
    }
    forall k | 0 <= k <= |url| && MatchAt(ShortLink, url, k).Some?
      ensures MatchAt(VOrSlash, url, k + 8).Some?
    {
      SlashPatternsSubsumed(ShortLink, url, k);
    }
  }

  /** A non-id character inside the window rules out an id there. */
  lemma NotIdAt(s: string, j: nat, bad: nat)
    requires j <= bad < j + IdLength && bad < |s| && !IsIdChar(s[bad])
    ensures !IdAt(s, j)
  {
    if j + IdLength <= |s| {
      assert s[j..j + IdLength][bad - j] == s[bad];
    }
  }

  /** Where the prefix `pre` of `s` has neither `v` nor `/`, the first
      pattern cannot start. */
  lemma PlainStretch(s: string, pre: string, lo: nat, hi: nat)
    requires |pre| <= |s| && s[..|pre|] == pre
    requires lo <= hi < |pre|
    requires forall k :: lo <= k < hi ==> pre[k] != '/' && pre[k] != 'v'
    ensures forall k :: lo <= k < hi ==> MatchAt(VOrSlash, s, k).None?
  {
    forall k | lo <= k < hi ensures MatchAt(VOrSlash, s, k).None? {
      assert s[k] == pre[k];
      assert s[k..k + 2][0] == s[k];
    }
  }

  /** A `/` of the prefix `pre` whose next eleven characters include a
      non-id one does not start a match. */
  lemma SlashBlocked(s: string, pre: string, k: nat, bad: nat)
    requires |pre| <= |s| && s[..|pre|] == pre
    requires k < bad < |pre| && bad <= k + IdLength
    requires pre[k] == '/' && !IsIdChar(pre[bad])
    ensures MatchAt(VOrSlash, s, k).None?
  {
    assert s[k] == pre[k] && s[bad] == pre[bad];
    NotIdAt(s, k + 1, bad);
    assert s[k..k + 2][0] == s[k];
  }

  /** A skipped prefix followed by a match: the search lands on it. */
  lemma FoundAt(s: string, i: nat, id: string)
    requires i <= |s| && MatchAt(VOrSlash, s, i) == Some(id)
    requires forall k :: 0 <= k < i ==> MatchAt(VOrSlash, s, k).None?
    ensures ExtractVideoId(s) == Some(id)
  {
    SearchSkips(VOrSlash, s, 0, i);
  }

  const ShortBase: string := "https://youtu.be/"
  const EmbedBase: string := "https://www.youtube.com/embed/"

  /** Where `v` and `/` sit in the watch prefix. */
  lemma BaseLayout()
    ensures |Base| == 32
    ensures forall k :: 0 <= k < 6 ==> Base[k] != '/' && Base[k] != 'v'
    ensures forall k :: 8 <= k < 23 ==> Base[k] != '/' && Base[k] != 'v'
    ensures forall k :: 24 <= k < 30 ==> Base[k] != '/' && Base[k] != 'v'
    ensures Base[6] == '/' && Base[7] == '/' && Base[11] == '.' && Base[23] == '/' && Base[29] == '?'
    ensures Base[30] == 'v' && Base[31] == '='
  {
  }

  lemma ShortBaseLayout()
    ensures |ShortBase| == 17
    ensures forall k :: 0 <= k < 6 ==> ShortBase[k] != '/' && ShortBase[k] != 'v'
    ensures forall k :: 8 <= k < 16 ==> ShortBase[k] != '/' && ShortBase[k] != 'v'
    ensures ShortBase[6] == '/' && ShortBase[7] == '/' && ShortBase[13] == '.' && ShortBase[16] == '/'
  {
  }

  lemma EmbedBaseLayout()
    ensures |EmbedBase| == 30
    ensures forall k :: 0 <= k < 6 ==> EmbedBase[k] != '/' && EmbedBase[k] != 'v'
    ensures forall k :: 8 <= k < 23 ==> EmbedBase[k] != '/' && EmbedBase[k] != 'v'
    ensures forall k :: 24 <= k < 29 ==> EmbedBase[k] != '/' && EmbedBase[k] != 'v'
    ensures EmbedBase[6] == '/' && EmbedBase[7] == '/' && EmbedBase[11] == '.' && EmbedBase[23] == '/'
    ensures EmbedBase[29] == '/'
  {
  }

  /** No match starts inside the watch prefix before its `v=`. */
  lemma WatchPrefixSkipped(s: string)
    requires |Base| <= |s| && s[..|Base|] == Base
    ensures forall k :: 0 <= k < 30 ==> MatchAt(VOrSlash, s, k).None?
  {
    BaseLayout();
    PlainStretch(s, Base, 0, 6);
    SlashBlocked(s, Base, 6, 7);
    SlashBlocked(s, Base, 7, 11);
    PlainStretch(s, Base, 8, 23);
    SlashBlocked(s, Base, 23, 29);
    PlainStretch(s, Base, 24, 30);
  }

  /** No match starts inside the short-link prefix before its last `/`. */
  lemma ShortPrefixSkipped(s: string)
    requires |ShortBase| <= |s| && s[..|ShortBase|] == ShortBase
    ensures forall k :: 0 <= k < 16 ==> MatchAt(VOrSlash, s, k).None?
  {
    ShortBaseLayout();
    PlainStretch(s, ShortBase, 0, 6);
    SlashBlocked(s, ShortBase, 6, 7);
    SlashBlocked(s, ShortBase, 7, 13);
    PlainStretch(s, ShortBase, 8, 16);
  }

  /** No match starts inside the embed prefix before its last `/`. */
  lemma EmbedPrefixSkipped(s: string)
    requires |EmbedBase| <= |s| && s[..|EmbedBase|] == EmbedBase
    ensures forall k :: 0 <= k < 29 ==> MatchAt(VOrSlash, s, k).None?
  {
    EmbedBaseLayout();
    PlainStretch(s, EmbedBase, 0, 6);
    SlashBlocked(s, EmbedBase, 6, 7);
    SlashBlocked(s, EmbedBase, 7, 11);
    PlainStretch(s, EmbedBase, 8, 23);
    SlashBlocked(s, EmbedBase, 23, 29);
    PlainStretch(s, EmbedBase, 24, 29);
  }

  /** The three URL forms of a watch link all yield their id, whatever follows it. */
  lemma WatchUrlYieldsId(id: string, rest: string)
    requires IsVideoId(id)
    ensures ExtractVideoId(Base + id + rest) == Some(id)
  {
    var s := Base + id + rest;
    assert s[..|Base|] == Base;
    WatchPrefixSkipped(s);
    BaseLayout();
    assert s[30..32][0] == s[30] == Base[30] && s[30..32][1] == s[31] == Base[31];
    assert s[32..43] == id;
    FoundAt(s, 30, id);
  }

  lemma ShortUrlYieldsId(id: string, rest: string)
    requires IsVideoId(id)
    ensures ExtractVideoId(ShortBase + id + rest) == Some(id)
  {
    var s := ShortBase + id + rest;
    assert s[..|ShortBase|] == ShortBase;
    ShortPrefixSkipped(s);
    ShortBaseLayout();
    assert s[16] == ShortBase[16];
    assert s[16..18][0] == s[16];
    assert s[17..28] == id;
    FoundAt(s, 16, id);
  }

  lemma EmbedUrlYieldsId(id: string, rest: string)
    requires IsVideoId(id)
    ensures ExtractVideoId(EmbedBase + id + rest) == Some(id)
  {
    var s := EmbedBase + id + rest;
    assert s[..|EmbedBase|] == EmbedBase;
    EmbedPrefixSkipped(s);
    EmbedBaseLayout();
    assert s[29] == EmbedBase[29];
    assert s[29..31][0] == s[29];
    assert s[30..41] == id;
    FoundAt(s, 29, id);
  }

  /** A `list=` followed by at least one id character starts at `k`. */
  predicate ListAt(url: string, k: nat) {
    k + 5 < |url| && OccursAt(url, "list=", k) && IsIdChar(url[k + 5])
  }

  /** `extract_playlist_id`: the maximal run of id characters after the
      leftmost `list=` that is followed by one. */
  function ExtractPlaylistId(url: string): (r: Option<string>)
    ensures r.Some? <==> exists k: nat :: ListAt(url, k)
    ensures r.Some? ==> exists k: nat ::
      && ListAt(url, k)
      && r.value == url[k + 5..RunEnd(url, k + 5, IdChars)]
      && forall j: nat :: j < k ==> !ListAt(url, j)
    ensures r.Some? ==> |r.value| > 0 && AllIn(r.value, IdChars)
  {
    assert forall k :: 0 <= k <= |url| ==> (MatchAt(ListParam, url, k).Some? <==> ListAt(url, k));
    assert forall k: nat :: ListAt(url, k) ==> k <= |url|;
    assert forall k: nat :: ListAt(url, k) ==> MatchAt(ListParam, url, k) == Some(url[k + 5..RunEnd(url, k + 5, IdChars)]);
    Search(ListParam, url, 0)
  }

  /** `self.listbase`: the canonical playlist URL. */
  const ListBase: string := "https://youtube.com/playlist?list="

  /** Where `l` sits in the playlist prefix: only in `playlist` and `list=`. */
  lemma ListBaseLayout()
    ensures |ListBase| == 34
    ensures forall k :: 0 <= k < 21 ==> ListBase[k] != 'l'
    ensures forall k :: 22 <= k < 24 ==> ListBase[k] != 'l'
    ensures forall k :: 25 <= k < 29 ==> ListBase[k] != 'l'
    ensures ListBase[22] == 'a' && ListBase[28] == '?'
    ensures ListBase[29] == 'l' && ListBase[30] == 'i' && ListBase[31] == 's' && ListBase[32] == 't' && ListBase[33] == '='
  {
  }

  /** `p` does not occur at `k` when one of its characters disagrees. */
  lemma NotOccursAt(s: string, p: string, k: nat, j: nat)
    requires j < |p| && k + j < |s| && s[k + j] != p[j]
    ensures !OccursAt(s, p, k)
  {
    if k + |p| <= |s| {
      assert s[k..k + |p|][j] == s[k + j];
    }
  }

  /** Where the prefix `pre` of `s` has no `l`, no `list=` starts. */
  lemma NoListStretch(s: string, pre: string, lo: nat, hi: nat)
    requires |pre| <= |s| && s[..|pre|] == pre
    requires lo <= hi <= |pre|
    requires forall k :: lo <= k < hi ==> pre[k] != 'l'
    ensures forall k :: lo <= k < hi ==> MatchAt(ListParam, s, k).None?
  {
    forall k | lo <= k < hi ensures MatchAt(ListParam, s, k).None? {
      assert s[k] == pre[k];
      NotOccursAt(s, "list=", k, 0);
    }
  }

  /** No `list=` starts inside the playlist prefix before its own. */
  lemma ListPrefixSkipped(s: string)
    requires |ListBase| <= |s| && s[..|ListBase|] == ListBase
    ensures forall k :: 0 <= k < 29 ==> MatchAt(ListParam, s, k).None?
  {
    ListBaseLayout();
    NoListStretch(s, ListBase, 0, 21);
    assert s[22] == ListBase[22];
    NotOccursAt(s, "list=", 21, 1);
    NoListStretch(s, ListBase, 22, 24);
    assert s[28] == ListBase[28];
    NotOccursAt(s, "list=", 24, 4);
    NoListStretch(s, ListBase, 25, 29);
  }

  /** A playlist URL yields its id, up to the first non-id character. */
  lemma PlaylistUrlYieldsId(pid: string, rest: string)
    requires |pid| > 0 && AllIn(pid, IdChars)
    requires rest == [] || !IsIdChar(rest[0])
    ensures ExtractPlaylistId(ListBase + pid + rest) == Some(pid)
  {
    var s := ListBase + pid + rest;
    assert s[..|ListBase|] == ListBase;
    ListPrefixSkipped(s);
    ListBaseLayout();
    assert s[29..34] == "list=" by {
      assert s[29] == ListBase[29] && s[30] == ListBase[30] && s[31] == ListBase[31];
      assert s[32] == ListBase[32] && s[33] == ListBase[33];
    }
    var e := 34 + |pid|;
    forall k | 34 <= k < e ensures InClass(s[k], IdChars) {
      assert s[k] == pid[k - 34];
    }
    if e < |s| {
      assert s[e] == rest[0];
    }
    RunEndAt(s, 34, e, IdChars);
    assert s[34..e] == pid;
    assert s[34] == pid[0];
    assert MatchAt(ListParam, s, 29) == Some(pid);
    SearchSkips(ListParam, s, 0, 29);
  }

  /** The id a cached lookup works on: the link itself when the caller says
      it is an id, else the id extracted from it; `None` when that is falsy. */
  function VideoIdOf(link: string, videoid: bool): (r: Option<string>)
    ensures r.Some? ==> r.value != ""
    ensures videoid ==> r == (if link == "" then None else Some(link))
    ensures !videoid ==> r == ExtractVideoId(link)
  {
    if videoid then (if link == "" then None else Some(link)) else ExtractVideoId(link)
  }

  /** `if videoid: link = self.base + link`. */
  function Prefixed(link: string, videoid: bool): (r: string)
    ensures videoid ==> |r| == |Base| + |link| && r[..|Base|] == Base && r[|Base|..] == link
    ensures !videoid ==> r == link
  {
    if videoid then Base + link else link
  }

  /** The link normalisation of `video` and `formats`: prefix, then keep
      what precedes the first `&`. */
  function NormaliseLink(link: string, videoid: bool): (r: string)
    ensures |r| <= |Prefixed(link, videoid)|
    ensures '&' !in r
    ensures r == Prefixed(link, videoid)[..|r|]
    ensures '&' !in Prefixed(link, videoid) ==> r == Prefixed(link, videoid)
    ensures |r| < |Prefixed(link, videoid)| ==> Prefixed(link, videoid)[|r|] == '&'
  {
    BeforeFirst(Prefixed(link, videoid), '&')
  }

  /** Normalising a normalised link changes nothing. */
  lemma NormaliseIdempotent(link: string, videoid: bool)
    ensures NormaliseLink(NormaliseLink(link, videoid), false) == NormaliseLink(link, videoid)
  {
  }
}

=== FILE: resolver.dfy ===
/** The cached metadata lookups of `YouTubeAPI`: `details` and its three
    projections `title`, `duration` and `thumbnail`, each behind its own
    unbounded cache, plus the uncached `exists` and `search_videos`. */
module Resolver {
  import opened Wrappers
  import opened Reference
  import opened VideoDetails
  import opened Duration
  import Memo

  /** The argument tuple a cache is keyed by. */
  datatype Key = Key(link: string, videoid: bool)

  /** The `videos` endpoint; the first argument counts the remote calls made
      before this one, so the service may answer differently over time. */
  type Remote = (nat, string) -> Option<seq<VideoItem>>

  /** The caches of one process and the number of remote lookups so far. */
  datatype Session = Session(
    details: map<Key, Option<Details>>,
    projections: map<(Field, Key), Option<string>>,
    remoteCalls: nat)

  /** Every cached projection is the projection of the cached record it was
      read from: `title`, `duration` and `thumbnail` never disagree with
      `details` for the same key. */
  ghost predicate Coherent(s: Session) {
    forall f, k :: (f, k) in s.projections ==>
      k in s.details && s.projections[(f, k)] == Project(f, s.details[k])
  }

  /** The body of `details` without its cache: no remote call when no id
      can be had, else one lookup of that id. */
  function Evaluate(remote: Remote, secondsToMin: nat -> string, calls: nat, key: Key): (r: (Option<Details>, nat))
    ensures VideoIdOf(key.link, key.videoid).None? ==> r == (None, calls)
    ensures VideoIdOf(key.link, key.videoid).Some? ==> r.1 == calls + 1
    ensures r.0.Some? ==> r.0.value.videoId == VideoIdOf(key.link, key.videoid).value
    // a record is found iff the service lists an item, and is read from the first one
    ensures VideoIdOf(key.link, key.videoid).Some? ==>
      var ans := remote(calls, VideoIdOf(key.link, key.videoid).value);
      && (r.0.Some? <==> ans.Some? && |ans.value| > 0)
      && (r.0.Some? ==>
            && r.0.value.title == ans.value[0].title
            && r.0.value.durationSec == ParseDuration(ans.value[0].duration)
            && r.0.value.thumbnail == PickThumbnail(ans.value[0].thumbnails)
            && r.0.value.durationMin == (if r.0.value.durationSec == 0 then "0:00" else secondsToMin(r.0.value.durationSec)))
  {
    match VideoIdOf(key.link, key.videoid)
    case None => (None, calls)
    case Some(id) => (DetailsOf(id, remote(calls, id), secondsToMin), calls + 1)
  }

  /** `details(link, videoid)` through its cache. A cached key, even one
      cached as `None`, costs no remote call and returns what it returned
      before. */
  function Details(s: Session, remote: Remote, secondsToMin: nat -> string, key: Key): (r: (Option<Details>, Session))
    ensures key in s.details ==> r == (s.details[key], s)
    ensures key !in s.details ==> r.0 == Evaluate(remote, secondsToMin, s.remoteCalls, key).0
    ensures key in r.1.details && r.1.details[key] == r.0
    ensures Memo.Extends(s.details, r.1.details) && r.1.projections == s.projections
    ensures r.1.details.Keys == s.details.Keys + {key}
    ensures s.remoteCalls <= r.1.remoteCalls <= s.remoteCalls + 1
    ensures key !in s.details ==> r.1.remoteCalls == Evaluate(remote, secondsToMin, s.remoteCalls, key).1
    ensures Coherent(s) ==> Coherent(r.1)
  {
    var evaluated := Evaluate(remote, secondsToMin, s.remoteCalls, key);
    var (v, cache) := Memo.Fetch(s.details, key, evaluated.0);
    if key in s.details then (v, s)
    else (v, s.(details := cache, remoteCalls := evaluated.1))
  }

  /** `title`, `duration` or `thumbnail` through its own cache, reading
      `details` on a miss. */
  function Projected(s: Session, remote: Remote, secondsToMin: nat -> string, f: Field, key: Key): (r: (Option<string>, Session))
    ensures Coherent(s) ==> Coherent(r.1)
    ensures Coherent(s) ==> key in r.1.details && r.0 == Project(f, r.1.details[key])
    ensures Memo.Extends(s.details, r.1.details) && Memo.Extends(s.projections, r.1.projections)
    ensures (f, key) in s.projections ==> r == (s.projections[(f, key)], s)
  {
    if (f, key) in s.projections then (s.projections[(f, key)], s)
    else
      var (d, s1) := Details(s, remote, secondsToMin, key);
      var v := Project(f, d);
      (v, s1.(projections := s1.projections[(f, key) := v]))
  }

  /** Repeating a lookup answers the same and costs no remote call. */
  lemma DetailsRepeat(s: Session, remote: Remote, secondsToMin: nat -> string, key: Key)
    ensures var (v, s1) := Details(s, remote, secondsToMin, key);
      Details(s1, remote, secondsToMin, key) == (v, s1)
  {
  }

  /** A `None` answer is cached like any other: once `details` has failed
      for a key, later calls fail too without asking the service again,
      whatever it would say now. */
  lemma FailureIsFinal(s: Session, remote: Remote, later: Remote, secondsToMin: nat -> string, key: Key)
    requires Details(s, remote, secondsToMin, key).0.None?
    ensures var s1 := Details(s, remote, secondsToMin, key).1;
      Details(s1, later, secondsToMin, key) == (None, s1)
  {
  }

  /** `exists`: whether the `videos` endpoint (asked for `part=id`) lists the
      id; `idCount` gives the number of items, `None` on failure. */
  function Exists(link: string, videoid: bool, idCount: string -> Option<nat>): (r: bool)
    ensures r ==> VideoIdOf(link, videoid).Some?
    ensures VideoIdOf(link, videoid).Some? ==>
      (r <==> idCount(VideoIdOf(link, videoid).value).GetOr(0) > 0)
  {
    match VideoIdOf(link, videoid)
    case None => false
    case Some(id) =>
      match idCount(id)
      case None => false
      case Some(n) => n > 0
  }

  /** Asking about a bare id and about its watch URL gives the same answer. */
  lemma ExistsIdAndWatchUrlAgree(id: string, idCount: string -> Option<nat>)
    requires IsVideoId(id)
    ensures Exists(id, true, idCount) == Exists(Base + id, false, idCount)
  {
    WatchUrlYieldsId(id, "");
    assert Base + id + "" == Base + id;
  }

  /** The parts of a `search` item that `search_videos` reads. */
  datatype SearchItem = SearchItem(videoId: string, title: string, highThumbnail: string, channel: string)

  /** One entry of the list `search_videos` returns. */
  datatype Hit = Hit(id: string, title: string, link: string, thumbnail: string, duration: string, channel: string)

  /** `search_videos(query, max_results)`: `search` stands for the `search`
      endpoint and `detailsOf` for the cached `details(id, videoid=True)`;
      one entry per result, in the service's order. */
  function SearchVideos(query: string, maxResults: int, search: (string, int) -> Option<seq<SearchItem>>,
                        detailsOf: string -> Option<Details>): (r: seq<Hit>)
    ensures |r| == (if search(query, maxResults).Some? then |search(query, maxResults).value| else 0)
    ensures forall i :: 0 <= i < |r| ==>
      var item := search(query, maxResults).value[i];
      && r[i].id == item.videoId && r[i].title == item.title
      && r[i].link == Base + item.videoId
      && r[i].thumbnail == item.highThumbnail && r[i].channel == item.channel
      && r[i].duration == (if detailsOf(item.videoId).Some? then detailsOf(item.videoId).value.durationMin else "0:00")
  {
    match search(query, maxResults)
    case None => []
    case Some(items) => seq(|items|, i requires 0 <= i < |items| => ToHit(items[i], detailsOf))
  }

  function ToHit(item: SearchItem, detailsOf: string -> Option<Details>): Hit {
    var d := detailsOf(item.videoId);
    Hit(item.videoId, item.title, Base + item.videoId, item.highThumbnail,
        if d.Some? then d.value.durationMin else "0:00", item.channel)
  }

  /** Every hit's link leads back to its id. */
  lemma HitLinkYieldsId(item: SearchItem, detailsOf: string -> Option<Details>)
    requires IsVideoId(item.videoId)
    ensures ExtractVideoId(ToHit(item, detailsOf).link) == Some(item.videoId)
  {
    WatchUrlYieldsId(item.videoId, "");
    assert Base + item.videoId + "" == Base + item.videoId;
  }
}

=== FILE: text.dfy ===
/** Character classes, ASCII case folding, substring search and decimal
    numerals: the string vocabulary of the YouTube platform module. */
module Text {

  /** ASCII decimal digit (the model restricts Python's `\d` to ASCII). */
  predicate IsDigit(c: char) {
    '0' <= c <= '9'
  }

  /** The identifier alphabet `[0-9A-Za-z_-]` of video and playlist ids. */
  predicate IsIdChar(c: char) {
    IsDigit(c) || 'A' <= c <= 'Z' || 'a' <= c <= 'z' || c == '_' || c == '-'
  }

  /** The two character classes the regular expressions of the module repeat. */
  datatype CharClass = Digits | IdChars

  predicate InClass(c: char, cls: CharClass) {
    match cls
    case Digits => IsDigit(c)
    case IdChars => IsIdChar(c)
  }

  /** Every character of `s` belongs to `cls`. */
  predicate AllIn(s: string, cls: CharClass) {
    forall k :: 0 <= k < |s| ==> InClass(s[k], cls)
  }

  /** End of the longest run of `cls` characters starting at `i`: what a
      greedy `[...]+` or `\d+` consumes. */
  function RunEnd(s: string, i: nat, cls: CharClass): (e: nat)
    requires i <= |s|
    ensures i <= e <= |s|
    ensures forall k :: i <= k < e ==> InClass(s[k], cls)
    ensures e == |s| || !InClass(s[e], cls)
    decreases |s| - i
  {
    if i < |s| && InClass(s[i], cls) then RunEnd(s, i + 1, cls) else i
  }

  /** A maximal run is determined by where it stops. */
  lemma RunEndAt(s: string, i: nat, e: nat, cls: CharClass)
    requires i <= e <= |s|
    requires forall k :: i <= k < e ==> InClass(s[k], cls)
    requires e == |s| || !InClass(s[e], cls)
    ensures RunEnd(s, i, cls) == e
  {
  }

  /** `p` occurs in `s` starting at index `i`. */
  predicate OccursAt(s: string, p: string, i: nat) {
    i + |p| <= |s| && s[i..i + |p|] == p
  }

  /** Python's `p in s` for strings. */
  predicate Contains(s: string, p: string) {
    exists i: nat :: i + |p| <= |s| && OccursAt(s, p, i)
  }

  /** Python's `str.lower()` restricted to ASCII letters. */
  function Lower(c: char): char {
    if 'A' <= c <= 'Z' then (c as int + 32) as char else c
  }

  function LowerString(s: string): (r: string)
    ensures |r| == |s|
    ensures forall k :: 0 <= k < |s| ==> r[k] == Lower(s[k])
  {
    seq(|s|, k requires 0 <= k < |s| => Lower(s[k]))
  }

  /** Python's `s.split(c)[0]`: the text before the first `c`, or all of `s`. */
  function BeforeFirst(s: string, c: char): (r: string)
    ensures |r| <= |s| && r == s[..|r|]
    ensures c !in r
    ensures |r| < |s| ==> s[|r|] == c
    ensures c !in s ==> r == s
  {
    if s == [] then []
    else if s[0] == c then []
    else [s[0]] + BeforeFirst(s[1..], c)
  }

  /** Value of an ASCII digit. */
  function DigitValue(c: char): nat
    requires IsDigit(c)
  {
    c as int - '0' as int
  }

  function DigitChar(d: nat): (c: char)
    requires d < 10
    ensures IsDigit(c) && DigitValue(c) == d
  {
    ('0' as int + d) as char
  }

  /** Python's `int(ds)` for a non-empty run of ASCII digits (leading zeros allowed). */
  function DigitsValue(ds: string): nat
    requires AllIn(ds, Digits)
  {
    if ds == [] then 0
    else DigitsValue(ds[..|ds| - 1]) * 10 + DigitValue(ds[|ds| - 1])
  }

  /** Python's `str(n)` for a natural number. */
  function NatToDigits(n: nat): (ds: string)
    ensures |ds| > 0
    ensures AllIn(ds, Digits)
  {
    if n < 10 then [DigitChar(n)] else NatToDigits(n / 10) + [DigitChar(n % 10)]
  }

  /** Reading back a printed number gives the number. */
  lemma {:induction false} DigitsRoundTrip(n: nat)
    ensures DigitsValue(NatToDigits(n)) == n
  {
    if n >= 10 {
      var ds := NatToDigits(n);
      assert ds[..|ds| - 1] == NatToDigits(n / 10);
      DigitsRoundTrip(n / 10);
    }
  }

  /** Python's `str(i)` for any integer. */
  function IntToString(i: int): (r: string)
    ensures |r| > 0
  {
    if i < 0 then "-" + NatToDigits(-i) else NatToDigits(i)
  }
}

=== FILE: track.dfy ===
/** `track(link, videoid)`: tiered resolution of a reference to a track
    record — the API lookup of an id, or the API search of a query, and
    the yt-dlp search `_track` only when that tier yields nothing. */
module Track {
  import opened Wrappers
  import opened Reference
  import opened VideoDetails
  import opened Resolver

  /** The dictionary `track` returns beside the id. `durationMin` is `None`
      only for a yt-dlp entry of zero duration. */
  datatype TrackInfo = TrackInfo(title: string, link: string, vidid: string, durationMin: Option<string>, thumb: string)

  /** The fatal outcomes of the yt-dlp tier: the tool raised, or an index
      into its answer was out of range. */
  datatype ToolError = ToolFailed(message: string) | IndexError

  /** The fields of a yt-dlp search entry that `_track` reads. */
  datatype ToolEntry = ToolEntry(title: string, url: string, id: string, duration: nat, thumbnails: seq<string>)

  /** `_track(q)`: the first entry of a yt-dlp search for `q`; `tool` stands
      for `extract_info("ytsearch: q")`. */
  function ToolTrack(q: string, tool: string -> Result<seq<ToolEntry>, string>, secondsToMin: nat -> string):
    (r: Result<(TrackInfo, string), ToolError>)
    ensures r.Success? ==> r.value.1 == r.value.0.vidid
    ensures r.Success? <==> tool(q).Success? && |tool(q).value| > 0 && |tool(q).value[0].thumbnails| > 0
    ensures r.Success? ==> (r.value.0.durationMin.None? <==> tool(q).value[0].duration == 0)
    // the record is read field by field from the first entry
    ensures r.Success? ==>
      var e := tool(q).value[0];
      && r.value.0.title == e.title && r.value.0.link == e.url && r.value.0.vidid == e.id
      && r.value.0.thumb == e.thumbnails[0]
      && (e.duration != 0 ==> r.value.0.durationMin == Some(secondsToMin(e.duration)))
  {
    match tool(q)
    case Failure(msg) => Failure(ToolFailed(msg))
    case Success(entries) =>
      if |entries| == 0 then Failure(IndexError)
      else
        var e := entries[0];
        if |e.thumbnails| == 0 then Failure(IndexError)
        else
          var minutes := if e.duration != 0 then Some(secondsToMin(e.duration)) else None;
          Success((TrackInfo(e.title, e.url, e.id, minutes, e.thumbnails[0]), e.id))
  }

  /** The tiers a resolution consulted, in order. */
  datatype Tier = ApiLookup(id: string) | ApiSearch(query: string) | ToolSearch(query: string)

  datatype Resolution = Resolution(result: Result<(TrackInfo, string), ToolError>, consulted: seq<Tier>)

  /** `track(link, videoid)`. `detailsOf` stands for the cached
      `details(id, videoid=True)`, `search` for `search_videos(q, 1)`.
      The link it reports, searches with and falls back with is
      `Prefixed(link, videoid)`. */
  function Track(link: string, videoid: bool, detailsOf: string -> Option<Details>, search: string -> seq<Hit>,
                 tool: string -> Result<seq<ToolEntry>, string>, secondsToMin: nat -> string): (r: Resolution)
    // the first tier is the lookup of the id when there is one, else the search
    ensures 1 <= |r.consulted| <= 2
    ensures r.consulted[0] ==
      (if VideoIdOf(link, videoid).Some? then ApiLookup(VideoIdOf(link, videoid).value) else ApiSearch(Prefixed(link, videoid)))
    // yt-dlp is consulted exactly when the first tier yields nothing, and then decides
    ensures |r.consulted| == 2 <==>
      (if VideoIdOf(link, videoid).Some? then detailsOf(VideoIdOf(link, videoid).value).None?
       else |search(Prefixed(link, videoid))| == 0)
    ensures |r.consulted| == 2 ==>
      r.consulted[1] == ToolSearch(Prefixed(link, videoid)) && r.result == ToolTrack(Prefixed(link, videoid), tool, secondsToMin)
    // without an id, the first search hit is the answer
    ensures VideoIdOf(link, videoid).None? && |search(Prefixed(link, videoid))| > 0 ==>
      var h := search(Prefixed(link, videoid))[0];
      r.result == Success((TrackInfo(h.title, h.link, h.id, Some(h.duration), h.thumbnail), h.id))
    // every path returns the same shape: the id beside the record is its `vidid`
    ensures r.result.Success? ==> r.result.value.1 == r.result.value.0.vidid
    // the API tiers never fail
    ensures |r.consulted| == 1 ==> r.result.Success?
  {
    var q := Prefixed(link, videoid);
    match VideoIdOf(link, videoid)
    case None =>
      var hits := search(q);
      if |hits| > 0 then
        var h := hits[0];
        Resolution(Success((TrackInfo(h.title, h.link, h.id, Some(h.duration), h.thumbnail), h.id)), [ApiSearch(q)])
      else
        Resolution(ToolTrack(q, tool, secondsToMin), [ApiSearch(q), ToolSearch(q)])
    case Some(id) =>
      match detailsOf(id)
      case Some(d) =>
        Resolution(Success((TrackInfo(d.title, q, d.videoId, Some(d.durationMin), d.thumbnail), d.videoId)), [ApiLookup(id)])
      case None =>
        Resolution(ToolTrack(q, tool, secondsToMin), [ApiLookup(id), ToolSearch(q)])
  }

  /** A lookup that succeeds is reported with the API's fields and the
      (prefixed) link. */
  lemma TrackFromDetails(link: string, videoid: bool, detailsOf: string -> Option<Details>, search: string -> seq<Hit>,
                         tool: string -> Result<seq<ToolEntry>, string>, secondsToMin: nat -> string)
    requires VideoIdOf(link, videoid).Some? && detailsOf(VideoIdOf(link, videoid).value).Some?
    ensures var d := detailsOf(VideoIdOf(link, videoid).value).value;
      Track(link, videoid, detailsOf, search, tool, secondsToMin).result ==
        Success((TrackInfo(d.title, Prefixed(link, videoid), d.videoId, Some(d.durationMin), d.thumbnail), d.videoId))
  {
  }

  /** Passing a bare id with `videoid` and passing its watch URL resolve alike. */
  lemma IdAndWatchUrlAgree(id: string, detailsOf: string -> Option<Details>, search: string -> seq<Hit>,
                           tool: string -> Result<seq<ToolEntry>, string>, secondsToMin: nat -> string)
    requires IsVideoId(id)
    ensures Track(id, true, detailsOf, search, tool, secondsToMin) == Track(Base + id, false, detailsOf, search, tool, secondsToMin)
  {
    WatchUrlYieldsId(id, "");
    assert Base + id + "" == Base + id;
  }
}

=== FILE: wrappers.dfy ===
/** Optional values and results shared by every module of the model. */
module Wrappers {

  /** Python's `None` / a present value. */
  datatype Option<+T> = None | Some(value: T) {

    /** The value, or `default` when absent (Python's `x or default` for non-falsy values). */
    function GetOr(default: T): T {
      match this
      case Some(v) => v
      case None => default
    }
  }

  /** Either a value or the error that a raised exception carries. */
  datatype Result<+R, +E> = Success(value: R) | Failure(error: E)
}
